=== FILE: README.md ===
# World weather dashboard — a Dafny model of its logic

This project models the logic of the world-weather-app dashboard, a Next.js
application over the OpenWeatherMap APIs, and proves properties of that
model. It covers:

- the temperature utilities: Celsius/Fahrenheit conversion, the unit-suffixed
  display string and the Kelvin formatter;
- the string helper that capitalises a weather description;
- the icon URL;
- the two request services: current weather and forecast, and place search
  and reverse geocoding;
- the query key and `enabled` flag of the `useWeather` and `useForecast`
  hooks;
- the `useTemperatureUnit` hook and its copy of the unit in `localStorage`;
- the debounced location search box;
- the reduction of the three-hourly forecast to one card per day.

Code written in the source as expressions is modelled as functions and
lemmas. The search box and the unit hook change state step by step, so each
is a class whose methods update its fields. The forecast reduction updates a
record in place, so it is a method with a loop, proved equal to a fold
function.

Some things stay outside the model and become parameters instead:

- Numbers are `real` and JavaScript's `Math.round` is `Floor(x + 0.5)`.
  Integers are printed in decimal by `Numbers.IntToDecimal`, which has a
  parser partner.
- `fetch` is a parameter `string -> Reply<B>`, so every service is stated for
  every network behaviour. A reply is a transport failure or a response with
  an `ok` flag and a body.
- The two environment variables are fields of `Environment.Env`, and so are
  two built-ins that turn values into URL text: number-to-string and
  `encodeURIComponent`. `Environment.UrlSafe` states what the URL lemmas
  rely on. Two of its facts are about the built-ins: number text never holds
  `&`, and encoded text never holds `&`. The third, that the API key
  holds no `&`, is an assumption about the deployment, which the source does
  not check. The read-back lemmas of the weather service also require that
  the base URL holds no `?` and that the unit holds no `&`.
- The date key `toLocaleDateString` of the forecast card is the parameter
  `dateOf`.
- `setTimeout` is a logical millisecond clock in `LocationSearch.SearchBox`.
  An awaited search stays in a list of searches in flight until `Complete`
  delivers its outcome, in any order.

Two behaviours of the search box are modelled as the code has them, although a reader might expect otherwise:

- A query shorter than two characters clears the results only when its
  debounce timer fires, not at once.
- A response to an older search is applied even after a newer search has
  started; `LocationSearch.StaleResponseWins` shows the older data winning.

## Model

| member | source | states |
|---|---|---|
| Numbers.Round | src/utils/temperatureConversion.ts:10 | `Math.round`: the result is the integer within half a unit of `x`, the upper one on a tie |
| Numbers.NatToDecimal | src/utils/temperatureConversion.ts:34 | the decimal text of a whole number is non-empty, all digits, and starts with '0' only for zero |
| Numbers.IntToDecimal | src/utils/temperatureConversion.ts:34 | the text of an integer starts with '-' exactly when the integer is negative, and is otherwise made of decimal digits with no leading zero; "0" is the only text that starts with '0' |
| Numbers.ParseIntToDecimal | src/utils/temperatureConversion.ts:34 | parsing the decimal text of any integer gives the integer back |
| Numbers.IntToDecimalInjective | src/utils/temperatureConversion.ts:34 | different integers print differently |
| Numbers.RoundMonotone | src/utils/temperatureConversion.ts:10 | rounding preserves order |
| TemperatureConversion.CelsiusToFahrenheit | src/utils/temperatureConversion.ts:9-11 | the result lies within half a degree of the exact `c * 9 / 5 + 32` |
| TemperatureConversion.FahrenheitToCelsius | src/utils/temperatureConversion.ts:19-21 | the result lies within half a degree of the exact `(f - 32) * 5 / 9` |
| TemperatureConversion.CelsiusToFahrenheitVectors | src/utils/temperatureConversion.ts:9-11 | 0 maps to 32, 100 to 212, -40 to -40, and 20.6 to 69 |
| TemperatureConversion.FahrenheitToCelsiusVectors | src/utils/temperatureConversion.ts:19-21 | 32 maps to 0, 212 to 100, -40 to -40, and 70 to 21 |
| TemperatureConversion.CelsiusRoundTrip | src/utils/temperatureConversion.ts:9-21 | converting a whole Celsius degree to Fahrenheit and back returns it |
| TemperatureConversion.CelsiusToFahrenheitMonotone | src/utils/temperatureConversion.ts:9-11 | the conversion preserves order |
| TemperatureConversion.FahrenheitToCelsiusMonotone | src/utils/temperatureConversion.ts:19-21 | the conversion preserves order |
| TemperatureConversion.GetTemperatureDisplay | src/utils/temperatureConversion.ts:30-35 | the text ends with the degree sign and a unit letter, which is 'C' exactly when the unit is "metric" |
| TemperatureConversion.ParseTemperatureDisplayRoundTrip | src/utils/temperatureConversion.ts:30-35 | the display reads back as the rounded temperature and its unit letter |
| TemperatureConversion.GetTemperatureDisplayInjective | src/utils/temperatureConversion.ts:30-35 | two displays are equal only when the rounded temperatures and the unit letters are |
| TemperatureConversion.GetTemperatureDisplayVectors | src/utils/temperatureConversion.ts:30-35 | 25.7 metric is "26°C", 77.3 imperial is "77°F", 20.4 is "20°C", 20.6 is "21°C", -5 is "-5°C", and 0 is "0°C" |
| TemperatureConversion.GetTemperatureDisplayAsWritten | src/utils/temperatureConversion.ts:34 | the text as written has one character more than the intended display, an 'Â' before the degree sign, so it never equals the intended display |
| TemperatureConversion.AsWrittenDisplayMissesVector | src/utils/temperatureConversion.ts:34 | the template as written does not produce "26°C" for 25.7 metric |
| Text.ToUpperAscii | src/utils/formatters.ts:46 | a lower-case ASCII letter becomes the upper-case letter at the same place in the alphabet; any other character is kept |
| Text.ToUpperAsciiAlphabet | src/utils/formatters.ts:46 | each of the 26 letters "a" to "z" maps to its partner in "A" to "Z" |
| Formatters.CapitalizeFirstLetter | src/utils/formatters.ts:45-47 | the length and every character after the first are kept; the first becomes its own upper-case form, so a lower-case letter becomes the same letter in upper case; a string whose first character is not lower-case is unchanged |
| Formatters.CapitalizeFirstLetterIdempotent | src/utils/formatters.ts:45-47 | capitalising twice equals capitalising once |
| Formatters.CapitalizeFirstLetterVectors | src/utils/formatters.ts:45-47 | "hello world" gives "Hello world", "a" gives "A", "" gives "", "clear sky" gives "Clear sky", "hELLO wORLD" gives "HELLO wORLD", and "Hello world" is unchanged |
| Formatters.FormatTemperature | src/utils/formatters.ts:21-24 | a Kelvin reading formats as the metric display of the reading minus 273.15 |
| Formatters.FormatTemperatureReadsBack | src/utils/formatters.ts:21-24 | the text reads back as the rounded Celsius value with the letter 'C' |
| Formatters.FormatTemperatureVectors | src/utils/formatters.ts:21-24 | 273.15 K is "0°C", 293.7 K is "21°C", and 263.15 K is "-10°C" |
| Icons.GetIconUrl | src/utils/icons.ts:8-10 | the URL is the icon base, then the code, then "@<size>x.png" |
| Icons.GetIconUrlContainsCode | src/utils/icons.ts:8-10 | the URL contains the icon code |
| Icons.GetIconUrlInjective | src/utils/icons.ts:8-10 | different codes at the same size give different URLs |
| Icons.GetIconUrlVectors | src/utils/icons.ts:8-10 | "01d" at size 2, "10n" at size 4 and "02d" at the default size 2 give the expected URLs |
| Url.ParseQueryString | src/services/weatherApi.ts:14-16 | a query string built from readable parameters parses back into them |
| Url.ParseBuild | src/services/weatherApi.ts:14-16 | a URL built from a path without '?' and readable parameters parses back into both |
| Environment.ApiKeyText | src/services/weatherApi.ts:15 | an unset key interpolates as "undefined", a set one as itself |
| Environment.NullableNumberText | src/services/weatherApi.ts:15 | a null coordinate interpolates as "null", a number as the number's text |
| Environment.NumberTextUrlSafe | src/services/weatherApi.ts:15 | a coordinate's text, "null" included, holds no '&' |
| WeatherApi.BaseUrl | src/services/weatherApi.ts:4-6 | the base is the variable's value whenever that is set and non-empty, and "https://api.openweathermap.org/data/2.5" otherwise |
| WeatherApi.WeatherDataUrl | src/services/weatherApi.ts:15 | the URL starts with `<base>/<endpoint>?lat=` and ends with the key |
| WeatherApi.WeatherDataUrlReadsBack | src/services/weatherApi.ts:14-16 | the request reads back as `<base>/<endpoint>` with lat, lon, units and appid in that order |
| WeatherApi.WeatherDataLookups | src/services/weatherApi.ts:15 | the four parameters carry the coordinates' text, the unit and the key |
| WeatherApi.FetchWeatherData | src/services/weatherApi.ts:10-23 | success exactly on an ok response, whose body is returned unchanged; a non-ok response fails with "Failed to fetch <endpoint> data"; a transport failure propagates |
| WeatherApi.UnitOrDefault | src/services/weatherApi.ts:25-29 | an omitted unit is "metric" and a given one is kept |
| WeatherApi.FetchWeather | src/services/weatherApi.ts:25-26 | as `FetchWeatherData` on `weather`, failing with "Failed to fetch weather data" |
| WeatherApi.FetchForecast | src/services/weatherApi.ts:28-29 | as `FetchWeatherData` on `forecast`, failing with "Failed to fetch forecast data" |
| WeatherApi.FetchWeatherUrlReadsBack | src/services/weatherApi.ts:14-26 | `fetchWeather` requests `<base>/weather` with the four parameters |
| WeatherApi.FetchForecastUrlReadsBack | src/services/weatherApi.ts:14-29 | `fetchForecast` requests `<base>/forecast` with the four parameters |
| WeatherApi.RequestedUnit | src/services/weatherApi.ts:15-29 | both requests carry the unit asked for, and "metric" when none is given |
| WeatherApi.DefaultEndpointRequests | src/services/weatherApi.ts:4-29 | with the variable unset, `fetchWeather` requests "https://api.openweathermap.org/data/2.5/weather" and `fetchForecast` ".../forecast" |
| WeatherApi.NullCoordinatesStillRequested | src/services/weatherApi.ts:10-16 | null coordinates are not guarded: the request is made with lat=null and lon=null |
| WeatherApi.UnitChangesRequest | src/services/weatherApi.ts:15 | requests for different units are different URLs |
| GeocodingApi.SearchLocationUrl | src/services/geocodingApi.ts:14 | the URL starts with `<geo>/direct?q=` and ends with the key |
| GeocodingApi.ReverseGeocodeUrl | src/services/geocodingApi.ts:35 | the URL starts with `<geo>/reverse?lat=` and ends with the key |
| GeocodingApi.SearchLocation | src/services/geocodingApi.ts:12-22 | success exactly on an ok response, whose array is returned unchanged, empty or not; a non-ok response fails with "Failed to search location"; a transport failure propagates |
| GeocodingApi.ReverseGeocode | src/services/geocodingApi.ts:33-44 | on an ok response, the first element, or nothing for an empty array; a non-ok response fails with "Failed to reverse geocode"; a transport failure propagates |
| GeocodingApi.DecimalUrlSafe | src/services/geocodingApi.ts:14 | the printed limit holds no '&' |
| GeocodingApi.SearchLocationUrlReadsBack | src/services/geocodingApi.ts:13-15 | the search reads back as `<geo>/direct` with q, limit and appid |
| GeocodingApi.ReverseGeocodeUrlReadsBack | src/services/geocodingApi.ts:34-36 | the reverse lookup reads back as `<geo>/reverse` with lat, lon, limit and appid |
| GeocodingApi.GeocodingRequestParameters | src/services/geocodingApi.ts:12-36 | the search carries the encoded query, limit 5 by default and the key; the reverse lookup carries the coordinates, limit 1 and the key |
| UseWeather.UseWeather | src/hooks/useWeather.ts:7-13 | the query is enabled exactly when both coordinates are present, and it forwards the arguments unchanged |
| UseWeather.WeatherQueryState | src/hooks/useWeather.ts:8-12 | without both coordinates the query stays idle and has no data; otherwise its outcome is `fetchWeather` of the arguments |
| UseWeather.WeatherKeyIdentifiesRequest | src/hooks/useWeather.ts:9-10 | two keys are equal exactly when the arguments are, and equal keys mean the same request URL |
| UseWeather.WeatherUnitToggleChangesKey | src/hooks/useWeather.ts:9 | changing the unit changes the key |
| UseForecast.UseForecast | src/hooks/useForecast.ts:7-13 | the query is enabled exactly when both coordinates are present, and it forwards the arguments unchanged |
| UseForecast.ForecastQueryState | src/hooks/useForecast.ts:8-12 | without both coordinates the query stays idle and has no data; otherwise its outcome is `fetchForecast` of the arguments |
| UseForecast.ForecastKeyIdentifiesRequest | src/hooks/useForecast.ts:9-10 | two keys are equal exactly when the arguments are, and equal keys mean the same request URL |
| UseForecast.ForecastKeyDiffersFromWeatherKey | src/hooks/useForecast.ts:9 | a forecast key never equals a weather key |
| UseForecast.ForecastUnitToggleChangesKey | src/hooks/useForecast.ts:9 | changing the unit changes the key |
| UseTemperatureUnit.InitialUnit | src/hooks/useTemperatureUnit.ts:7-13 | without a window, metric; with one, the stored string when it is non-empty, whatever it is, and metric otherwise |
| UseTemperatureUnit.InitialUnitKeepsUnknownValue | src/hooks/useTemperatureUnit.ts:9-10 | a stored "invalid" becomes the unit, and it is not a temperature unit |
| UseTemperatureUnit.ValidatedInitialUnit | src/hooks/useTemperatureUnit.ts:7-13 | the corrected initial state is always a unit: the stored one when it is valid, metric otherwise |
| UseTemperatureUnit.ValidatedAgreesOnValidStorage | src/hooks/useTemperatureUnit.ts:7-13 | the corrected and the written initial state agree unless storage holds a non-empty non-unit |
| UseTemperatureUnit.Toggled | src/hooks/useTemperatureUnit.ts:16 | the new unit is a unit and differs from the old one; it is imperial exactly when the old one is metric, so any other string, a unit or not, toggles to metric |
| UseTemperatureUnit.ToggleTwiceRestores | src/hooks/useTemperatureUnit.ts:16 | toggling a unit twice restores it |
| UseTemperatureUnit.UnitPreference.constructor | src/hooks/useTemperatureUnit.ts:7-13 | the state starts at the initial unit read from storage |
| UseTemperatureUnit.UnitPreference.ToggleUnit | src/hooks/useTemperatureUnit.ts:15-19 | the unit is toggled and written under "temperatureUnit"; other storage entries are kept |
| UseTemperatureUnit.ToggleTwiceFromEmptyStorage | src/hooks/useTemperatureUnit.ts:6-22 | from empty storage two toggles give imperial and then metric, and storage follows |
| UseTemperatureUnit.LoadsStoredImperial | src/hooks/useTemperatureUnit.ts:8-10 | a stored "imperial" is loaded |
| LocationSearch.SearchBox.constructor | src/components/Search/LocationSearch.tsx:18-21 | empty query and results, no spinner, list hidden, no timer |
| LocationSearch.SearchBox.InputChange | src/components/Search/LocationSearch.tsx:23-59 | the query is set at once and any pending timer is replaced by one for the new value, due 300 ms later |
| Text.Utf16Length | src/components/Search/LocationSearch.tsx:32 | JavaScript's `length`: one code unit for a character of the Basic Multilingual Plane and two for any other character; so the count equals the number of characters exactly when none lies outside that plane, and exceeds it otherwise |
| Text.Utf16LengthAppend | src/components/Search/LocationSearch.tsx:32 | the length of a concatenation is the sum of the two lengths |
| LocationSearch.SearchBox.HandleSearch | src/components/Search/LocationSearch.tsx:31-39 | a value shorter than 2 UTF-16 code units clears the results and starts nothing; a longer one turns the spinner on and starts a search for it |
| LocationSearch.SearchBox.Elapse | src/components/Search/LocationSearch.tsx:23-29 | a timer that falls due fires its captured value once; before then nothing changes, and no time passing never fires a timer |
| LocationSearch.SearchBox.Complete | src/components/Search/LocationSearch.tsx:39-47 | success shows the data and opens the list; failure clears the results and keeps the list flag; either way the spinner turns off |
| LocationSearch.SearchBox.SelectLocation | src/components/Search/LocationSearch.tsx:61-66 | reports lat, lon and name, then sets the query to "name, country", closes the list and clears the results |
| LocationSearch.SearchBox.Focus | src/components/Search/LocationSearch.tsx:76 | focus opens the list exactly when there are results |
| LocationSearch.SearchBox.ShowsResultList | src/components/Search/LocationSearch.tsx:85 | the list is only rendered when there are results |
| LocationSearch.SearchBox.ShowsNoLocationsFound | src/components/Search/LocationSearch.tsx:85-112 | "No locations found" is never shown together with the list, and needs a query of at least 2 UTF-16 code units and no spinner |
| LocationSearch.TypeAndWait | src/components/Search/LocationSearch.tsx:31-59 | typing and waiting 300 ms starts a search exactly when the value has at least 2 UTF-16 code units, and clears the results otherwise |
| LocationSearch.RapidTyping | src/components/Search/LocationSearch.tsx:23-29 | two inputs less than 300 ms apart: only the second value can be searched for |
| LocationSearch.StaleResponseWins | src/components/Search/LocationSearch.tsx:39-47 | when an older search answers last, its data is shown and the spinner is off |
| LocationSearch.AstralCharacterQuery | src/components/Search/LocationSearch.tsx:32 | a single emoji, two UTF-16 code units long, is searched for |
| LocationSearch.FailureShowsNoLocations | src/components/Search/LocationSearch.tsx:42-112 | a failure after a success keeps the list flag, so "No locations found" is shown and the list is not |
| Text.Contains | src/components/Weather/ForecastCard.tsx:23 | `includes`: a text that contains another is at least as long |
| Text.ContainsPosition | src/components/Weather/ForecastCard.tsx:23 | a contained text occurs at some position |
| Text.ContainsInfix | src/components/Weather/ForecastCard.tsx:23 | a text placed between two others is contained in the whole |
| Text.PositionContains | src/components/Weather/ForecastCard.tsx:23 | a text that occurs at some position is contained |
| ForecastCard.Step | src/components/Weather/ForecastCard.tsx:21-27 | the item's date becomes a key, and the item its entry when the date is new or the item is the noon forecast; otherwise nothing changes; other entries are kept, a new date goes to the end of the order, and a well-formed record stays well-formed |
| ForecastCard.Reduce | src/components/Weather/ForecastCard.tsx:20-29 | the record is well-formed, has at most one date per item, and is empty exactly when the list is |
| ForecastCard.DailyForecasts | src/components/Weather/ForecastCard.tsx:18-31 | the in-place reduction computes the fold `Reduce` |
| ForecastCard.FirstDays | src/components/Weather/ForecastCard.tsx:33-36 | at most five cards, and fewer only when there are fewer dates |
| ForecastCard.Occurs | src/components/Weather/ForecastCard.tsx:22 | the recursive test agrees with "some item falls on the date" |
| ForecastCard.FirstIndex | src/components/Weather/ForecastCard.tsx:23 | the position of an item on the date with no earlier item on it |
| ForecastCard.LastMiddayIndex | src/components/Weather/ForecastCard.tsx:23 | the position of a noon item on the date with no later noon item on it |
| ForecastCard.ReduceKeys | src/components/Weather/ForecastCard.tsx:20-29 | the record lists each date once, and its keys are exactly the dates in the list |
| ForecastCard.ReduceEntry | src/components/Weather/ForecastCard.tsx:23-24 | the entry kept for a date is its last noon item, or its first item when it has none |
| ForecastCard.ReduceOrder | src/components/Weather/ForecastCard.tsx:20-34 | dates are listed in order of first occurrence, so replacing an entry does not move it |
| ForecastCard.ForecastEntries | src/components/Weather/ForecastCard.tsx:18-36 | each card is the list item chosen for its date |
| ForecastCard.ForecastOrder | src/components/Weather/ForecastCard.tsx:18-36 | the cards have distinct dates, in order of first occurrence |
| ForecastCard.ForecastCoverage | src/components/Weather/ForecastCard.tsx:34 | a date without a card means five cards, all for dates that occur earlier |
| ForecastCard.EmptyListNoCards | src/components/Weather/ForecastCard.tsx:20-34 | an empty list gives no cards |

## Left out

- `formatDate` and `formatTime` (src/utils/formatters.ts:7-13,32-37) depend on the locale and the time zone. The forecast card's date key is the parameter `dateOf` for the same reason.
- Rendering and layout are left out: the JSX of every component, the page, the map component and the skeletons. The search box's two display conditions are the exception and are modelled.
- The browser's geolocation and its fallback are browser I/O and are left out.
- The real network is left out: `fetch`, JSON parsing and the environment variables are parameters. The API key and the base URL are `Env` fields.
- JavaScript's number-to-string and `encodeURIComponent` are kept abstract as `Env` fields. The model uses only the facts in `Environment.UrlSafe` about them.
- Numbers are exact reals, not IEEE-754 doubles. Rounding errors of the conversions, NaN and the infinities are not modelled.
- Large numbers printed in exponent notation are not modelled. Temperatures are printed through `Numbers.IntToDecimal` after rounding.
- Icons.GetIconUrl: takes the size as an integer; a fractional size, printed as JavaScript prints numbers, is not modelled.
- GeocodingApi.SearchLocation: takes the limit as an integer; a fractional limit such as 2.5, which JavaScript prints as "limit=2.5", is not modelled.
- UseTemperatureUnit.UnitPreference.ToggleUnit: reads the current unit field, as if the component re-rendered before every event. The source's `toggleUnit` uses the unit captured when it was rendered, so two toggles within one render are not modelled.
- LocationSearch.SearchBox.Focus: reads the current results, as if the component re-rendered before every event. The source's `onFocus` uses the results captured when it was rendered.
- Formatters.CapitalizeFirstLetter: upper-cases ASCII letters only. Unicode case mapping, including mappings that change the length, is not modelled.
- react-query's caching, de-duplication, retries and loading flags belong to a library that is not part of this model. Only the key, the forwarded arguments and `enabled` are modelled.
- Wall-clock time and async interleaving are replaced by the logical clock of `LocationSearch.SearchBox.Elapse` and by explicit `Complete` steps. A search's outcome is chosen by the caller of `Complete`, not by a model of the service.
- The `console.error` call on a failed search is logging and is left out.
- `Object.values` lists keys that look like array indices first, in numeric order. The model keeps pure insertion order, which is what the card gets for date strings such as "1/15/2024".
- The `localStorage` write in `toggleUnit` is a field of `UseTemperatureUnit.UnitPreference`. Whether a window exists is a parameter of its constructor.

## Findings

| source | as written | input that shows it | evidently intended | confidence | as-written member | corrected member |
|---|---|---|---|---|---|---|
| src/utils/temperatureConversion.ts:34 | the template holds "Â°", a mis-encoded degree sign, so the text is the number, "Â", "°" and the letter | `getTemperatureDisplay(25.7, "metric")` gives "26Â°C", while the test at src/utils/__tests__/temperatureConversion.test.ts:47 expects "26°C" | the number, the degree sign and the unit letter | high; not executed | TemperatureConversion.AsWrittenDisplayMissesVector | TemperatureConversion.GetTemperatureDisplayVectors |
| src/hooks/useTemperatureUnit.ts:9-10 | any non-empty stored string becomes the unit | storage "temperatureUnit" = "invalid" gives the unit "invalid", while the test at src/hooks/__tests__/useTemperatureUnit.test.ts:59-63 expects "metric" | a stored value that is not a unit falls back to metric | medium; not executed | UseTemperatureUnit.InitialUnitKeepsUnknownValue | UseTemperatureUnit.ValidatedInitialUnit |

In both findings, the as-written function stays in the model beside the
corrected one:

- `TemperatureConversion.GetTemperatureDisplayAsWritten` builds the text as
  written.
- `UseTemperatureUnit.InitialUnit` is the initial state as written. The
  class `UseTemperatureUnit.UnitPreference` follows the code as written, so
  its state can hold a string that is not a unit. `Toggled` maps any such
  string to metric.

=== FILE: environment.dfy ===
/** What the service modules take from their surroundings: the two public
    environment variables and the JavaScript built-ins that turn values into
    URL text. The built-ins are carried as functions so that the services
    can be stated for any behaviour of theirs. */
module Environment {
  import opened Wrappers

  datatype Env = Env(
    apiKeyVar: Option<string>,          // NEXT_PUBLIC_OPENWEATHER_API_KEY
    apiUrlVar: Option<string>,          // NEXT_PUBLIC_OPENWEATHER_API_URL
    numberToString: real -> string,     // `${x}` for a finite number
    encodeUriComponent: string -> string)

  /** `${API_KEY}`: an unset variable interpolates as "undefined". */
  function ApiKeyText(env: Env): (key: string)
    ensures env.apiKeyVar.None? ==> key == "undefined"
    ensures env.apiKeyVar.Some? ==> key == env.apiKeyVar.value
  {
    match env.apiKeyVar
    case None => "undefined"
    case Some(key) => key
  }

  /** `${x}` for `x: number | null`: null interpolates as "null". */
  function NullableNumberText(env: Env, x: Option<real>): (text: string)
    ensures x.None? ==> text == "null"
    ensures x.Some? ==> text == env.numberToString(x.value)
  {
    match x
    case None => "null"
    case Some(v) => env.numberToString(v)
  }

  /** What the built-ins guarantee and the key must respect for the request
      URLs to be readable: number text and percent-encoded text never hold
      '&' (encodeURIComponent escapes it), and the key holds no '&'. */
  ghost predicate UrlSafe(env: Env) {
    && (forall x :: '&' !in env.numberToString(x))
    && (forall s :: '&' !in env.encodeUriComponent(s))
    && '&' !in ApiKeyText(env)
  }

  lemma NumberTextUrlSafe(env: Env, x: Option<real>)
    requires UrlSafe(env)
    ensures '&' !in NullableNumberText(env, x)
  {
  }

  /** The outcome of `fetch(url)`: a rejected promise, or a response whose
      `ok` flag is set for 2xx statuses and whose JSON body is `body`. */
  datatype Reply<B> = NetworkError | Response(ok: bool, body: B)

  /** Why a service call rejects: the transport's own error, or the
      `Error(message)` the service throws on a non-ok response. */
  datatype FetchError = TransportFailed | RequestFailed(message: string)
}

=== FILE: forecast_card.dfy ===
/** `src/components/Weather/ForecastCard.tsx`, lines 18-36: the reduction of
    the three-hourly forecast list to one entry per local date, and the
    first five of those dates. The date key `toLocaleDateString` of an
    item's timestamp depends on locale and time zone, so it is the
    parameter `dateOf`. */
module ForecastCard {
  import opened Text
  import opened WeatherTypes

  const MiddayMark: string := "12:00:00"
  const MaxDays: nat := 5

  /** The entry is the forecast for noon: its `dt_txt` contains "12:00:00". */
  predicate IsMidday(item: ForecastItem)
  {
    Contains(item.dtTxt, MiddayMark)
  }

  function DateOf(item: ForecastItem, dateOf: int -> string): string
  {
    dateOf(item.dt)
  }

  /** The accumulator record: its keys in insertion order and its entries.
      An assignment to an existing key keeps that key's position. */
  datatype Daily = Daily(dates: seq<string>, byDate: map<string, ForecastItem>)

  /** Each date is a key once, and the order lists exactly the keys. */
  predicate Valid(acc: Daily)
  {
    && (forall i, j :: 0 <= i < j < |acc.dates| ==> acc.dates[i] != acc.dates[j])
    && (forall d :: d in acc.byDate ==> d in acc.dates)
    && (forall d :: d in acc.dates ==> d in acc.byDate)
  }

  /** One step of the `reduce` callback: the item replaces the entry for
      its date when there is none yet or when it is the noon forecast. */
  function Step(acc: Daily, item: ForecastItem, dateOf: int -> string): (r: Daily)
    ensures r.byDate.Keys == acc.byDate.Keys + {DateOf(item, dateOf)}
    ensures acc.dates <= r.dates && |r.dates| <= |acc.dates| + 1
    ensures Valid(acc) ==> Valid(r)
    ensures (DateOf(item, dateOf) !in acc.byDate || IsMidday(item)) ==> r.byDate[DateOf(item, dateOf)] == item
    ensures DateOf(item, dateOf) in acc.byDate && !IsMidday(item) ==> r == acc
    ensures forall d :: d in acc.byDate && d != DateOf(item, dateOf) ==> r.byDate[d] == acc.byDate[d]
  {
    var date := DateOf(item, dateOf);
    if date !in acc.byDate then
      Daily(acc.dates + [date], acc.byDate[date := item])
    else if IsMidday(item) then
      Daily(acc.dates, acc.byDate[date := item])
    else
      acc
  }

  /** `data.list.reduce(callback, {})`, as a left fold. */
  function Reduce(items: seq<ForecastItem>, dateOf: int -> string): (r: Daily)
    ensures Valid(r)
    ensures |r.dates| <= |items|
    ensures (r.dates == []) == (items == [])
  {
    if items == [] then Daily([], map[])
    else Step(Reduce(items[..|items| - 1], dateOf), items[|items| - 1], dateOf)
  }

  /** The `dailyForecasts` memo: the callback updates one record in place. */
  method DailyForecasts(items: seq<ForecastItem>, dateOf: int -> string) returns (daily: Daily)
    ensures daily == Reduce(items, dateOf)
  {
    var dates: seq<string> := [];
    var byDate: map<string, ForecastItem> := map[];
    var i := 0;
    while i < |items|
      invariant 0 <= i <= |items|
      invariant Daily(dates, byDate) == Reduce(items[..i], dateOf)
    {
      var item := items[i];
      assert items[..i + 1][..i] == items[..i];
      ghost var next := Step(Daily(dates, byDate), item, dateOf);
      assert Reduce(items[..i + 1], dateOf) == next;
      var date := dateOf(item.dt);
      if date !in byDate || IsMidday(item) {
        if date !in byDate {
          dates := dates + [date];
        }
        byDate := byDate[date := item];
      }
      assert Daily(dates, byDate) == next;
      i := i + 1;
    }
    assert items[..|items|] == items;
    daily := Daily(dates, byDate);
  }

  /** `Object.values(dailyForecasts).slice(0, 5)`. */
  function FirstDays(daily: Daily): (days: seq<ForecastItem>)
    requires Valid(daily)
    ensures |days| <= MaxDays
    ensures |days| == if |daily.dates| < MaxDays then |daily.dates| else MaxDays
  {
    var n := if |daily.dates| < MaxDays then |daily.dates| else MaxDays;
    seq(n, k requires 0 <= k < n => daily.byDate[daily.dates[k]])
  }

  // An independent account of which entry the fold keeps for a date.

  /** Some item falls on date `d`. */
  predicate Occurs(items: seq<ForecastItem>, dateOf: int -> string, d: string)
    ensures Occurs(items, dateOf, d) <==> exists i :: 0 <= i < |items| && DateOf(items[i], dateOf) == d
  {
    |items| > 0 && (DateOf(items[|items| - 1], dateOf) == d || Occurs(items[..|items| - 1], dateOf, d))
  }

  /** Some item on date `d` is a noon forecast. */
  predicate HasMidday(items: seq<ForecastItem>, dateOf: int -> string, d: string)
    ensures HasMidday(items, dateOf, d) <==>
      exists i :: 0 <= i < |items| && DateOf(items[i], dateOf) == d && IsMidday(items[i])
  {
    && |items| > 0
    && ((DateOf(items[|items| - 1], dateOf) == d && IsMidday(items[|items| - 1]))
        || HasMidday(items[..|items| - 1], dateOf, d))
  }

  /** The position of the first item on date `d`. */
  function FirstIndex(items: seq<ForecastItem>, dateOf: int -> string, d: string): (r: nat)
    requires Occurs(items, dateOf, d)
    ensures r < |items| && DateOf(items[r], dateOf) == d
    ensures forall j :: 0 <= j < r ==> DateOf(items[j], dateOf) != d
  {
    if Occurs(items[..|items| - 1], dateOf, d) then FirstIndex(items[..|items| - 1], dateOf, d)
    else |items| - 1
  }

  /** The position of the last noon forecast on date `d`. */
  function LastMiddayIndex(items: seq<ForecastItem>, dateOf: int -> string, d: string): (r: nat)
    requires HasMidday(items, dateOf, d)
    ensures r < |items| && DateOf(items[r], dateOf) == d && IsMidday(items[r])
    ensures forall j :: r < j < |items| ==> !(DateOf(items[j], dateOf) == d && IsMidday(items[j]))
  {
    var last := items[|items| - 1];
    if DateOf(last, dateOf) == d && IsMidday(last) then |items| - 1
    else LastMiddayIndex(items[..|items| - 1], dateOf, d)
  }

  /** The item the card intends to show for date `d`: its last noon
      forecast, or its first item when it has no noon forecast. */
  function ChosenIndex(items: seq<ForecastItem>, dateOf: int -> string, d: string): (r: nat)
    requires Occurs(items, dateOf, d)
    ensures r < |items| && DateOf(items[r], dateOf) == d
  {
    if HasMidday(items, dateOf, d) then LastMiddayIndex(items, dateOf, d) else FirstIndex(items, dateOf, d)
  }

  /** The fold keeps a well-formed record whose keys are the dates that
      occur in the list. */
  lemma {:induction false} ReduceKeys(items: seq<ForecastItem>, dateOf: int -> string)
    ensures Valid(Reduce(items, dateOf))
    ensures forall d :: d in Reduce(items, dateOf).byDate <==> Occurs(items, dateOf, d)
  {
    if items != [] {
      ReduceKeys(items[..|items| - 1], dateOf);
    }
  }

  /** The entry kept for each date is the last noon forecast of that date,
      or its first item when there is none. */
  lemma {:induction false} ReduceEntry(items: seq<ForecastItem>, dateOf: int -> string, d: string)
    requires Occurs(items, dateOf, d)
    ensures d in Reduce(items, dateOf).byDate && Reduce(items, dateOf).byDate[d] == items[ChosenIndex(items, dateOf, d)]
  {
    ReduceKeys(items, dateOf);
    var prefix := items[..|items| - 1];
    var last := items[|items| - 1];
    ReduceKeys(prefix, dateOf);
    if Occurs(prefix, dateOf, d) {
      ReduceEntry(prefix, dateOf, d);
      assert FirstIndex(items, dateOf, d) == FirstIndex(prefix, dateOf, d);
      if !(DateOf(last, dateOf) == d && IsMidday(last)) {
        assert HasMidday(items, dateOf, d) == HasMidday(prefix, dateOf, d);
        if HasMidday(prefix, dateOf, d) {
          assert LastMiddayIndex(items, dateOf, d) == LastMiddayIndex(prefix, dateOf, d);
        }
      }
    }
  }

  /** Appending an item keeps the first position of a date that already
      occurs. */
  lemma FirstIndexExtend(items: seq<ForecastItem>, dateOf: int -> string, d: string)
    requires items != [] && Occurs(items[..|items| - 1], dateOf, d)
    ensures Occurs(items, dateOf, d) && FirstIndex(items, dateOf, d) == FirstIndex(items[..|items| - 1], dateOf, d)
  {
  }

  /** One step of the fold either keeps the date order or appends a date
      seen for the first time. */
  lemma ReduceDatesStep(items: seq<ForecastItem>, dateOf: int -> string)
    requires items != []
    ensures var prefix := items[..|items| - 1];
      var date := DateOf(items[|items| - 1], dateOf);
      || (Occurs(prefix, dateOf, date) && Reduce(items, dateOf).dates == Reduce(prefix, dateOf).dates)
      || (!Occurs(prefix, dateOf, date) && Reduce(items, dateOf).dates == Reduce(prefix, dateOf).dates + [date])
  {
    ReduceKeys(items[..|items| - 1], dateOf);
  }

  /** Dates are listed in the order in which they first occur: replacing
      the entry of a date does not move it. */
  lemma {:induction false} ReduceOrder(items: seq<ForecastItem>, dateOf: int -> string, a: nat, b: nat)
    requires a < b < |Reduce(items, dateOf).dates|
    ensures var dates := Reduce(items, dateOf).dates;
      && Occurs(items, dateOf, dates[a]) && Occurs(items, dateOf, dates[b])
      && FirstIndex(items, dateOf, dates[a]) < FirstIndex(items, dateOf, dates[b])
  {
    var prefix := items[..|items| - 1];
    var date := DateOf(items[|items| - 1], dateOf);
    var dates := Reduce(items, dateOf).dates;
    var before := Reduce(prefix, dateOf).dates;
    ReduceKeys(prefix, dateOf);
    ReduceDatesStep(items, dateOf);
    assert dates[a] == before[a] && before[a] in Reduce(prefix, dateOf).byDate;
    FirstIndexExtend(items, dateOf, before[a]);
    if b < |before| {
      ReduceOrder(prefix, dateOf, a, b);
      assert dates[b] == before[b] && before[b] in Reduce(prefix, dateOf).byDate;
      FirstIndexExtend(items, dateOf, before[b]);
    } else {
      assert dates[b] == date && !Occurs(prefix, dateOf, date);
      assert FirstIndex(items, dateOf, date) == |items| - 1;
    }
  }

  /** Card `k` shows the entry the fold kept for the `k`-th date. */
  lemma DayOfCard(items: seq<ForecastItem>, dateOf: int -> string, k: nat)
    requires Valid(Reduce(items, dateOf)) && k < |FirstDays(Reduce(items, dateOf))|
    ensures var daily := Reduce(items, dateOf);
      && Occurs(items, dateOf, daily.dates[k])
      && FirstDays(daily)[k] == items[ChosenIndex(items, dateOf, daily.dates[k])]
      && DateOf(FirstDays(daily)[k], dateOf) == daily.dates[k]
  {
    ReduceKeys(items, dateOf);
    var daily := Reduce(items, dateOf);
    assert daily.dates[k] in daily.byDate;
    ReduceEntry(items, dateOf, daily.dates[k]);
  }

  /** Each card shows the entry chosen for its date: an element of the
      list, on the date it is shown for. */
  lemma ForecastEntries(items: seq<ForecastItem>, dateOf: int -> string)
    ensures Valid(Reduce(items, dateOf))
    ensures var days := FirstDays(Reduce(items, dateOf));
      forall k :: 0 <= k < |days| ==>
        && Occurs(items, dateOf, DateOf(days[k], dateOf))
        && days[k] == items[ChosenIndex(items, dateOf, DateOf(days[k], dateOf))]
  {
    ReduceKeys(items, dateOf);
    var days := FirstDays(Reduce(items, dateOf));
    forall k | 0 <= k < |days|
      ensures Occurs(items, dateOf, DateOf(days[k], dateOf))
      ensures days[k] == items[ChosenIndex(items, dateOf, DateOf(days[k], dateOf))]
    {
      DayOfCard(items, dateOf, k);
    }
  }

  /** Cards `j < k` show distinct dates, the earlier-occurring one first. */
  lemma CardPairOrder(items: seq<ForecastItem>, dateOf: int -> string, j: nat, k: nat)
    requires Valid(Reduce(items, dateOf)) && j < k < |FirstDays(Reduce(items, dateOf))|
    ensures var days := FirstDays(Reduce(items, dateOf));
      && DateOf(days[j], dateOf) != DateOf(days[k], dateOf)
      && Occurs(items, dateOf, DateOf(days[j], dateOf)) && Occurs(items, dateOf, DateOf(days[k], dateOf))
      && FirstIndex(items, dateOf, DateOf(days[j], dateOf)) < FirstIndex(items, dateOf, DateOf(days[k], dateOf))
  {
    DayOfCard(items, dateOf, j);
    DayOfCard(items, dateOf, k);
    ReduceOrder(items, dateOf, j, k);
  }

  /** The cards show distinct dates, in the order in which the dates first
      occur in the list. */
  lemma ForecastOrder(items: seq<ForecastItem>, dateOf: int -> string)
    ensures Valid(Reduce(items, dateOf))
    ensures var days := FirstDays(Reduce(items, dateOf));
      forall j, k :: 0 <= j < k < |days| ==>
        && DateOf(days[j], dateOf) != DateOf(days[k], dateOf)
        && Occurs(items, dateOf, DateOf(days[j], dateOf)) && Occurs(items, dateOf, DateOf(days[k], dateOf))
        && FirstIndex(items, dateOf, DateOf(days[j], dateOf)) < FirstIndex(items, dateOf, DateOf(days[k], dateOf))
  {
    ReduceKeys(items, dateOf);
    var days := FirstDays(Reduce(items, dateOf));
    forall j, k | 0 <= j < k < |days|
      ensures DateOf(days[j], dateOf) != DateOf(days[k], dateOf)
      ensures Occurs(items, dateOf, DateOf(days[j], dateOf)) && Occurs(items, dateOf, DateOf(days[k], dateOf))
      ensures FirstIndex(items, dateOf, DateOf(days[j], dateOf)) < FirstIndex(items, dateOf, DateOf(days[k], dateOf))
    {
      CardPairOrder(items, dateOf, j, k);
    }
  }

  /** A date of the list without a card occurs only after the five dates
      shown: fewer than five cards means every date has one. */
  lemma ForecastCoverage(items: seq<ForecastItem>, dateOf: int -> string, i: nat)
    requires i < |items|
    ensures Valid(Reduce(items, dateOf))
    ensures var days := FirstDays(Reduce(items, dateOf));
      (forall k :: 0 <= k < |days| ==> DateOf(days[k], dateOf) != DateOf(items[i], dateOf)) ==>
        && |days| == MaxDays
        && (forall k :: 0 <= k < |days| ==>
              Occurs(items, dateOf, DateOf(days[k], dateOf)) && FirstIndex(items, dateOf, DateOf(days[k], dateOf)) < i)
  {
    ReduceKeys(items, dateOf);
    var daily := Reduce(items, dateOf);
    var days := FirstDays(daily);
    var d := DateOf(items[i], dateOf);
    if forall k :: 0 <= k < |days| ==> DateOf(days[k], dateOf) != d {
      assert Occurs(items, dateOf, d);
      assert d in daily.byDate;
      var m :| 0 <= m < |daily.dates| && daily.dates[m] == d;
      if m < |days| {
        DayOfCard(items, dateOf, m);
        assert false;
      }
      forall k | 0 <= k < |days|
        ensures Occurs(items, dateOf, DateOf(days[k], dateOf)) && FirstIndex(items, dateOf, DateOf(days[k], dateOf)) < i
      {
        DayOfCard(items, dateOf, k);
        ReduceOrder(items, dateOf, k, m);
      }
    }
  }

  lemma EmptyListNoCards(dateOf: int -> string)
    ensures Valid(Reduce([], dateOf)) && FirstDays(Reduce([], dateOf)) == []
  {
  }
}

=== FILE: formatters.dfy ===
/** `src/utils/formatters.ts`: first-letter capitalisation and the Kelvin
    temperature text. The locale-dependent `formatDate` and `formatTime`
    are not part of this model. */
module Formatters {
  import opened Wrappers
  import opened Numbers
  import opened Text
  import opened WeatherTypes
  import TemperatureConversion

  /** `str.charAt(0).toUpperCase() + str.slice(1)`. */
  function CapitalizeFirstLetter(str: string): (r: string)
    ensures |r| == |str|
    ensures forall i :: 1 <= i < |str| ==> r[i] == str[i]
    ensures |str| > 0 ==> !IsLowerAscii(r[0])
    ensures |str| > 0 ==> r[0] == ToUpperAscii(str[0])
    ensures |str| > 0 && IsLowerAscii(str[0]) ==> r[0] as int - 'A' as int == str[0] as int - 'a' as int
    ensures |str| > 0 && !IsLowerAscii(str[0]) ==> r == str
  {
    if str == [] then "" else [ToUpperAscii(str[0])] + str[1..]
  }

  lemma CapitalizeFirstLetterIdempotent(str: string)
    ensures CapitalizeFirstLetter(CapitalizeFirstLetter(str)) == CapitalizeFirstLetter(str)
  {
  }

  lemma CapitalizeFirstLetterVectors()
    ensures CapitalizeFirstLetter("hello world") == "Hello world"
    ensures CapitalizeFirstLetter("Hello world") == "Hello world"
    ensures CapitalizeFirstLetter("a") == "A"
    ensures CapitalizeFirstLetter("") == ""
    ensures CapitalizeFirstLetter("clear sky") == "Clear sky"
    ensures CapitalizeFirstLetter("hELLO wORLD") == "HELLO wORLD"
  {
  }

  const KelvinOffset: real := 273.15

  /** Kelvin to Celsius, rounded, followed by "°C". */
  function FormatTemperature(tempKelvin: real): (s: string)
    ensures s == TemperatureConversion.GetTemperatureDisplay(tempKelvin - KelvinOffset, Metric)
  {
    var tempCelsius := tempKelvin - KelvinOffset;
    IntToDecimal(Round(tempCelsius)) + "\U{B0}C"
  }

  /** The text reads back as the nearest whole Celsius degree. */
  lemma FormatTemperatureReadsBack(tempKelvin: real)
    ensures TemperatureConversion.ParseTemperatureDisplay(FormatTemperature(tempKelvin))
         == Some((Round(tempKelvin - KelvinOffset), 'C'))
  {
    TemperatureConversion.ParseTemperatureDisplayRoundTrip(tempKelvin - KelvinOffset, Metric);
  }

  lemma FormatTemperatureVectors()
    ensures FormatTemperature(273.15) == "0\U{B0}C"
    ensures FormatTemperature(293.7) == "21\U{B0}C"
    ensures FormatTemperature(263.15) == "-10\U{B0}C"
  {
    assert Round(293.7 - KelvinOffset) == 21;
    assert IntToDecimal(21) == "21";
  }
}

=== FILE: geocoding_api.dfy ===
/** `src/services/geocodingApi.ts`: place search by name and reverse
    geocoding of a coordinate. As in the weather service, `fetch` is a
    parameter from the URL to the reply. */
module GeocodingApi {
  import opened Wrappers
  import opened Numbers
  import opened LocationTypes
  import opened Environment
  import Url

  const GeoUrl := "https://api.openweathermap.org/geo/1.0"
  const DefaultSearchLimit: int := 5

  /** The URL `searchLocation` requests: the query percent-encoded, the
      limit as a whole number. */
  function SearchLocationUrl(env: Env, query: string, limit: int := DefaultSearchLimit): (url: string)
    ensures GeoUrl + "/direct?q=" <= url
    ensures |ApiKeyText(env)| < |url| && url[|url| - |ApiKeyText(env)|..] == ApiKeyText(env)
  {
    GeoUrl + "/direct?q=" + env.encodeUriComponent(query)
      + "&limit=" + IntToDecimal(limit)
      + "&appid=" + ApiKeyText(env)
  }

  /** The URL `reverseGeocode` requests: always one result. */
  function ReverseGeocodeUrl(env: Env, lat: real, lon: real): (url: string)
    ensures GeoUrl + "/reverse?lat=" <= url
    ensures |ApiKeyText(env)| < |url| && url[|url| - |ApiKeyText(env)|..] == ApiKeyText(env)
  {
    GeoUrl + "/reverse?lat=" + env.numberToString(lat)
      + "&lon=" + env.numberToString(lon)
      + "&limit=1"
      + "&appid=" + ApiKeyText(env)
  }

  /** `searchLocation(query, limit = 5)`: a rejected fetch propagates, a
      non-ok response throws "Failed to search location", an ok response
      yields its array unchanged, empty or not. */
  function SearchLocation(env: Env, fetch: string -> Reply<seq<GeocodingResult>>, query: string,
                          limit: int := DefaultSearchLimit): (r: Result<seq<GeocodingResult>, FetchError>)
    ensures var reply := fetch(SearchLocationUrl(env, query, limit));
      && (r.Success? <==> reply.Response? && reply.ok)
      && (r.Success? ==> r.value == reply.body)
      && (reply.NetworkError? ==> r == Failure(TransportFailed))
      && (reply.Response? && !reply.ok ==> r == Failure(RequestFailed("Failed to search location")))
  {
    match fetch(SearchLocationUrl(env, query, limit))
    case NetworkError => Failure(TransportFailed)
    case Response(ok, data) =>
      if !ok then Failure(RequestFailed("Failed to search location")) else Success(data)
  }

  /** `reverseGeocode(lat, lon)`: errors as for the search, with the message
      "Failed to reverse geocode"; on success the first element of the
      array, or nothing (`undefined`) when the array is empty. */
  function ReverseGeocode(env: Env, fetch: string -> Reply<seq<GeocodingResult>>, lat: real, lon: real)
    : (r: Result<Option<GeocodingResult>, FetchError>)
    ensures var reply := fetch(ReverseGeocodeUrl(env, lat, lon));
      && (r.Success? <==> reply.Response? && reply.ok)
      && (r.Success? ==> (r.value.None? <==> reply.body == []))
      && (r.Success? && r.value.Some? ==> r.value.value == reply.body[0])
      && (reply.NetworkError? ==> r == Failure(TransportFailed))
      && (reply.Response? && !reply.ok ==> r == Failure(RequestFailed("Failed to reverse geocode")))
  {
    match fetch(ReverseGeocodeUrl(env, lat, lon))
    case NetworkError => Failure(TransportFailed)
    case Response(ok, data) =>
      if !ok then Failure(RequestFailed("Failed to reverse geocode"))
      else Success(if |data| > 0 then Some(data[0]) else None)
  }

  function SearchParams(env: Env, query: string, limit: int): seq<Url.Param> {
    [("q", env.encodeUriComponent(query)), ("limit", IntToDecimal(limit)), ("appid", ApiKeyText(env))]
  }

  function ReverseParams(env: Env, lat: real, lon: real): seq<Url.Param> {
    [("lat", env.numberToString(lat)), ("lon", env.numberToString(lon)), ("limit", "1"), ("appid", ApiKeyText(env))]
  }

  lemma SearchTemplateShape(p: string, q: string, l: string, k: string)
    ensures p + "/direct?q=" + q + "&limit=" + l + "&appid=" + k
         == (p + "/direct") + "?" + ("q=" + q + "&limit=" + l + "&appid=" + k)
  {
    assert "/direct?q=" == "/direct" + "?" + "q=";
  }

  lemma ReverseTemplateShape(p: string, a: string, b: string, k: string)
    ensures p + "/reverse?lat=" + a + "&lon=" + b + "&limit=1" + "&appid=" + k
         == (p + "/reverse") + "?" + ("lat=" + a + "&lon=" + b + "&limit=1" + "&appid=" + k)
  {
    assert "/reverse?lat=" == "/reverse" + "?" + "lat=";
  }

  lemma SearchQueryString(env: Env, query: string, limit: int)
    ensures Url.QueryString(SearchParams(env, query, limit))
         == "q=" + env.encodeUriComponent(query) + "&limit=" + IntToDecimal(limit) + "&appid=" + ApiKeyText(env)
  {
    var params := SearchParams(env, query, limit);
    assert params == [params[0]] + ([params[1]] + [params[2]]);
    Url.QueryStringCons(params[1], [params[2]]);
    Url.QueryStringCons(params[0], [params[1]] + [params[2]]);
  }

  lemma ReverseQueryString(env: Env, lat: real, lon: real)
    ensures Url.QueryString(ReverseParams(env, lat, lon))
         == "lat=" + env.numberToString(lat) + "&lon=" + env.numberToString(lon) + "&limit=1" + "&appid=" + ApiKeyText(env)
  {
    var params := ReverseParams(env, lat, lon);
    assert params == [params[0]] + ([params[1]] + ([params[2]] + [params[3]]));
    Url.QueryStringCons(params[2], [params[3]]);
    Url.QueryStringCons(params[1], [params[2]] + [params[3]]);
    Url.QueryStringCons(params[0], [params[1]] + ([params[2]] + [params[3]]));
  }

  lemma DecimalUrlSafe(i: int)
    ensures '&' !in IntToDecimal(i)
  {
    var l := IntToDecimal(i);
    if i < 0 {
      assert l == "-" + NatToDecimal(-i);
    }
    assert forall j :: 0 <= j < |l| ==> l[j] == '-' || IsDigit(l[j]);
  }

  lemma SearchParamsReadable(env: Env, query: string, limit: int)
    requires UrlSafe(env)
    ensures Url.Readable(SearchParams(env, query, limit))
  {
    var params := SearchParams(env, query, limit);
    DecimalUrlSafe(limit);
    forall i | 0 <= i < 3
      ensures '&' !in params[i].0 && '=' !in params[i].0 && '&' !in params[i].1
    {
    }
  }

  lemma ReverseParamsReadable(env: Env, lat: real, lon: real)
    requires UrlSafe(env)
    ensures Url.Readable(ReverseParams(env, lat, lon))
  {
    var params := ReverseParams(env, lat, lon);
    forall i | 0 <= i < 4
      ensures '&' !in params[i].0 && '=' !in params[i].0 && '&' !in params[i].1
    {
    }
  }

  /** The search URL reads back as `<geo>/direct` with q, limit and appid. */
  lemma SearchLocationUrlReadsBack(env: Env, query: string, limit: int)
    requires UrlSafe(env)
    ensures Url.Parse(SearchLocationUrl(env, query, limit)) == (GeoUrl + "/direct", SearchParams(env, query, limit))
  {
    var path := GeoUrl + "/direct";
    var params := SearchParams(env, query, limit);
    SearchParamsReadable(env, query, limit);
    SearchQueryString(env, query, limit);
    var q, l, k := env.encodeUriComponent(query), IntToDecimal(limit), ApiKeyText(env);
    calc {
      SearchLocationUrl(env, query, limit);
      GeoUrl + "/direct?q=" + q + "&limit=" + l + "&appid=" + k;
      { SearchTemplateShape(GeoUrl, q, l, k); }
      path + "?" + ("q=" + q + "&limit=" + l + "&appid=" + k);
      Url.Build(path, params);
    }
    Url.ParseBuild(path, params);
  }

  /** The reverse URL reads back as `<geo>/reverse` with lat, lon, limit=1
      and appid. */
  lemma ReverseGeocodeUrlReadsBack(env: Env, lat: real, lon: real)
    requires UrlSafe(env)
    ensures Url.Parse(ReverseGeocodeUrl(env, lat, lon)) == (GeoUrl + "/reverse", ReverseParams(env, lat, lon))
  {
    var path := GeoUrl + "/reverse";
    var params := ReverseParams(env, lat, lon);
    ReverseParamsReadable(env, lat, lon);
    ReverseQueryString(env, lat, lon);
    var a, b, k := env.numberToString(lat), env.numberToString(lon), ApiKeyText(env);
    calc {
      ReverseGeocodeUrl(env, lat, lon);
      GeoUrl + "/reverse?lat=" + a + "&lon=" + b + "&limit=1" + "&appid=" + k;
      { ReverseTemplateShape(GeoUrl, a, b, k); }
      path + "?" + ("lat=" + a + "&lon=" + b + "&limit=1" + "&appid=" + k);
      Url.Build(path, params);
    }
    Url.ParseBuild(path, params);
  }

  /** The parameters the tests look for: the encoded query, limit=5 by
      default, limit=1 for reverse lookups, and the key on both. */
  lemma GeocodingRequestParameters(env: Env, query: string, lat: real, lon: real)
    requires UrlSafe(env)
    ensures Url.Lookup(Url.Parse(SearchLocationUrl(env, query)).1, "q") == Some(env.encodeUriComponent(query))
    ensures Url.Lookup(Url.Parse(SearchLocationUrl(env, query)).1, "limit") == Some("5")
    ensures Url.Lookup(Url.Parse(SearchLocationUrl(env, query)).1, "appid") == Some(ApiKeyText(env))
    ensures Url.Lookup(Url.Parse(ReverseGeocodeUrl(env, lat, lon)).1, "lat") == Some(env.numberToString(lat))
    ensures Url.Lookup(Url.Parse(ReverseGeocodeUrl(env, lat, lon)).1, "lon") == Some(env.numberToString(lon))
    ensures Url.Lookup(Url.Parse(ReverseGeocodeUrl(env, lat, lon)).1, "limit") == Some("1")
    ensures Url.Lookup(Url.Parse(ReverseGeocodeUrl(env, lat, lon)).1, "appid") == Some(ApiKeyText(env))
  {
    SearchLocationUrlReadsBack(env, query, DefaultSearchLimit);
    ReverseGeocodeUrlReadsBack(env, lat, lon);
    var sp := SearchParams(env, query, DefaultSearchLimit);
    var rp := ReverseParams(env, lat, lon);
    assert IntToDecimal(5) == "5";
    assert "q" != "limit" && "q" != "appid" && "limit" != "appid";
    assert "lat" != "lon" && "lat" != "limit" && "lat" != "appid" && "lon" != "limit" && "lon" != "appid";
    assert Url.Lookup(sp, "limit") == Url.Lookup(sp[1..], "limit");
    assert Url.Lookup(sp, "appid") == Url.Lookup(sp[1..], "appid") == Url.Lookup(sp[2..], "appid");
    assert Url.Lookup(rp, "lon") == Url.Lookup(rp[1..], "lon");
    assert Url.Lookup(rp, "limit") == Url.Lookup(rp[1..], "limit") == Url.Lookup(rp[2..], "limit");
    assert Url.Lookup(rp, "appid") == Url.Lookup(rp[1..], "appid") == Url.Lookup(rp[2..], "appid")
        == Url.Lookup(rp[3..], "appid");
  }
}

=== FILE: icons.dfy ===
/** `src/utils/icons.ts`: the URL of an OpenWeatherMap condition icon. */
module Icons {
  import opened Numbers
  import opened Text

  const IconBaseUrl := "https://openweathermap.org/img/wn/"

  /** The icon URL for `iconCode` at magnification `size` (2 when omitted).
      The size is modelled as a whole number. */
  function GetIconUrl(iconCode: string, size: int := 2): (url: string)
    ensures IconBaseUrl <= url
    ensures |url| > |IconBaseUrl| + |iconCode|
    ensures url[|IconBaseUrl|..|IconBaseUrl| + |iconCode|] == iconCode
    ensures url[|IconBaseUrl| + |iconCode|..] == "@" + IntToDecimal(size) + "x.png"
  {
    IconBaseUrl + iconCode + "@" + IntToDecimal(size) + "x.png"
  }

  lemma GetIconUrlContainsCode(iconCode: string, size: int)
    ensures Contains(GetIconUrl(iconCode, size), iconCode)
  {
    var suffix := "@" + IntToDecimal(size) + "x.png";
    assert GetIconUrl(iconCode, size) == IconBaseUrl + iconCode + suffix;
    ContainsInfix(IconBaseUrl, iconCode, suffix);
  }

  /** At a fixed size, distinct icon codes give distinct URLs. */
  lemma GetIconUrlInjective(a: string, b: string, size: int)
    requires GetIconUrl(a, size) == GetIconUrl(b, size)
    ensures a == b
  {
    var suffix := "@" + IntToDecimal(size) + "x.png";
    assert |a| == |b| by {
      assert |GetIconUrl(a, size)| == |IconBaseUrl| + |a| + |suffix|;
      assert |GetIconUrl(b, size)| == |IconBaseUrl| + |b| + |suffix|;
    }
  }

  lemma GetIconUrlVectors()
    ensures GetIconUrl("01d", 2) == "https://openweathermap.org/img/wn/01d@2x.png"
    ensures GetIconUrl("10n", 4) == "https://openweathermap.org/img/wn/10n@4x.png"
    ensures GetIconUrl("02d") == "https://openweathermap.org/img/wn/02d@2x.png"
  {
  }
}

=== FILE: location_search.dfy ===
/** `src/components/Search/LocationSearch.tsx`: the search box's state and
    its handlers. Time is a logical millisecond clock advanced by `Elapse`;
    a search handed to `searchLocation` stays in flight until `Complete`
    delivers its outcome, in any order. */
module LocationSearch {
  import opened Wrappers
  import opened LocationTypes
  import opened Text

  const DebounceDelay: nat := 300
  const MinQueryLength: nat := 2

  /** The debounce closure's pending `setTimeout`: the value it will search
      for and the time it fires. */
  datatype Timer = Timer(value: string, due: nat)

  /** How the awaited `searchLocation` call settles. */
  datatype SearchOutcome = Found(data: seq<GeocodingResult>) | SearchFailed

  /** The arguments of `onLocationSelect(lat, lon, name)`. */
  datatype Selection = Selection(lat: real, lon: real, name: string)

  class SearchBox {
    var query: string
    var results: seq<GeocodingResult>
    var isSearching: bool
    var showResults: bool
    var pending: Option<Timer>
    var now: nat
    var inFlight: seq<string>

    /** A pending timer lies in the future, at most one delay ahead; the
        spinner is only on while some search is in flight. */
    ghost predicate Valid()
      reads this
    {
      && (pending.Some? ==> now < pending.value.due <= now + DebounceDelay)
      && (isSearching ==> inFlight != [])
    }

    constructor ()
      ensures Valid()
      ensures query == "" && results == [] && !isSearching && !showResults
      ensures pending == None && now == 0 && inFlight == []
    {
      query, results, isSearching, showResults := "", [], false, false;
      pending, now, inFlight := None, 0, [];
    }

    /** `handleInputChange`: the query is set at once and the debounced call
        replaces any pending timer. Nothing else changes yet: in particular
        a short value does not clear the results until its timer fires. */
    method InputChange(value: string)
      requires Valid()
      modifies this
      ensures Valid()
      ensures query == value
      ensures pending == Some(Timer(value, old(now) + DebounceDelay))
      ensures results == old(results) && isSearching == old(isSearching) && showResults == old(showResults)
      ensures now == old(now) && inFlight == old(inFlight)
    {
      query := value;
      pending := Some(Timer(value, now + DebounceDelay));
    }

    /** `handleSearch` up to its `await`: a value shorter than two
        characters only clears the results; a longer one turns the spinner
        on and starts a search. Lengths are JavaScript's, in UTF-16 code
        units. */
    method HandleSearch(searchQuery: string) returns (started: Option<string>)
      requires Valid()
      modifies this
      ensures Valid()
      ensures Utf16Length(searchQuery) < MinQueryLength ==>
        started == None && results == [] && isSearching == old(isSearching) && inFlight == old(inFlight)
      ensures Utf16Length(searchQuery) >= MinQueryLength ==>
        started == Some(searchQuery) && results == old(results) && isSearching && inFlight == old(inFlight) + [searchQuery]
      ensures query == old(query) && showResults == old(showResults) && pending == old(pending) && now == old(now)
    {
      if Utf16Length(searchQuery) < MinQueryLength {
        results := [];
        started := None;
        return;
      }
      isSearching := true;
      inFlight := inFlight + [searchQuery];
      started := Some(searchQuery);
    }

    /** Time passes; a timer that falls due fires and runs `handleSearch` on
        the value it captured. Returns the query handed to `searchLocation`,
        if any. */
    method Elapse(dt: nat) returns (started: Option<string>)
      requires Valid()
      modifies this
      ensures Valid()
      ensures now == old(now) + dt && query == old(query) && showResults == old(showResults)
      ensures old(pending).None? || now < old(pending).value.due ==>
        started == None && pending == old(pending)
        && results == old(results) && isSearching == old(isSearching) && inFlight == old(inFlight)
      ensures old(pending).Some? && old(pending).value.due <= now ==> pending == None
      ensures dt == 0 ==> started == None
      ensures old(pending).Some? && old(pending).value.due <= now && Utf16Length(old(pending).value.value) < MinQueryLength ==>
        started == None && results == [] && isSearching == old(isSearching) && inFlight == old(inFlight)
      ensures old(pending).Some? && old(pending).value.due <= now && Utf16Length(old(pending).value.value) >= MinQueryLength ==>
        started == Some(old(pending).value.value) && isSearching && results == old(results)
        && inFlight == old(inFlight) + [old(pending).value.value]
    {
      now := now + dt;
      started := None;
      if pending.Some? && pending.value.due <= now {
        var value := pending.value.value;
        pending := None;
        started := HandleSearch(value);
      }
    }

    /** The awaited search `inFlight[i]` settles. Success shows its data;
        failure clears the results and leaves `showResults` as it was; either
        way `finally` turns the spinner off. The response is applied even if
        a later search was started since: stale responses are not dropped. */
    method Complete(i: nat, outcome: SearchOutcome)
      requires Valid() && i < |inFlight|
      modifies this
      ensures Valid()
      ensures outcome.Found? ==> results == outcome.data && showResults
      ensures outcome.SearchFailed? ==> results == [] && showResults == old(showResults)
      ensures !isSearching
      ensures inFlight == old(inFlight)[..i] + old(inFlight)[i + 1..]
      ensures query == old(query) && pending == old(pending) && now == old(now)
    {
      match outcome {
        case Found(data) =>
          results := data;
          showResults := true;
        case SearchFailed =>
          results := [];
      }
      isSearching := false;
      inFlight := inFlight[..i] + inFlight[i + 1..];
    }

    /** `handleSelectLocation`: reports the place, then shows "name, country"
        in the box and closes the list. */
    method SelectLocation(result: GeocodingResult) returns (selected: Selection)
      requires Valid()
      modifies this
      ensures Valid()
      ensures selected == Selection(result.lat, result.lon, result.name)
      ensures query == result.name + ", " + result.country && !showResults && results == []
      ensures isSearching == old(isSearching) && pending == old(pending) && now == old(now) && inFlight == old(inFlight)
    {
      selected := Selection(result.lat, result.lon, result.name);
      query := result.name + ", " + result.country;
      showResults := false;
      results := [];
    }

    /** The input's `onFocus`: reopens the list when there are results. */
    method Focus()
      requires Valid()
      modifies this
      ensures Valid()
      ensures showResults == (old(showResults) || |results| > 0)
      ensures query == old(query) && results == old(results) && isSearching == old(isSearching)
      ensures pending == old(pending) && now == old(now) && inFlight == old(inFlight)
    {
      if |results| > 0 {
        showResults := true;
      }
    }

    /** The result list is rendered. */
    predicate ShowsResultList()
      reads this
      ensures ShowsResultList() ==> results != []
    {
      showResults && |results| > 0
    }

    /** "No locations found" is rendered; never together with the list. */
    predicate ShowsNoLocationsFound()
      reads this
      ensures ShowsNoLocationsFound() ==> !ShowsResultList() && Utf16Length(query) >= MinQueryLength && !isSearching
    {
      showResults && Utf16Length(query) >= MinQueryLength && !isSearching && |results| == 0
    }
  }

  /** Typing one value and waiting out the delay starts a search exactly
      when the value has at least two characters. */
  method TypeAndWait(value: string) returns (started: Option<string>, results: seq<GeocodingResult>)
    ensures Utf16Length(value) < MinQueryLength ==> started == None && results == []
    ensures Utf16Length(value) >= MinQueryLength ==> started == Some(value)
  {
    var box := new SearchBox();
    box.InputChange(value);
    started := box.Elapse(DebounceDelay);
    results := box.results;
  }

  /** Two keystrokes less than the delay apart: the first timer is
      replaced, so only the second value can be searched for. */
  method RapidTyping(first: string, second: string, gap: nat) returns (startedEarly: Option<string>, startedLate: Option<string>)
    requires gap < DebounceDelay
    ensures startedEarly == None
    ensures startedLate == (if Utf16Length(second) >= MinQueryLength then Some(second) else None)
  {
    var box := new SearchBox();
    box.InputChange(first);
    startedEarly := box.Elapse(gap);
    box.InputChange(second);
    startedLate := box.Elapse(DebounceDelay);
  }

  /** Two searches overlap and the older one answers last: its stale data
      is what the box shows. */
  method StaleResponseWins(older: seq<GeocodingResult>, newer: seq<GeocodingResult>) returns (shown: seq<GeocodingResult>, searching: bool)
    ensures shown == older
    ensures !searching
  {
    var box := new SearchBox();
    box.InputChange("Lo");
    var s1 := box.Elapse(DebounceDelay);
    box.InputChange("Lon");
    var s2 := box.Elapse(DebounceDelay);
    assert box.inFlight == ["Lo", "Lon"];
    box.Complete(1, Found(newer));
    assert box.inFlight == ["Lo"];
    box.Complete(0, Found(older));
    shown, searching := box.results, box.isSearching;
  }

  /** A failed search after a successful one keeps the panel open with no
      results, so "No locations found" is displayed. */
  method FailureShowsNoLocations(found: seq<GeocodingResult>) returns (listShown: bool, noneShown: bool)
    ensures !listShown && noneShown
  {
    var box := new SearchBox();
    box.InputChange("Paris");
    var s1 := box.Elapse(DebounceDelay);
    box.Complete(0, Found(found));
    box.InputChange("Pari");
    var s2 := box.Elapse(DebounceDelay);
    box.Complete(0, SearchFailed);
    listShown, noneShown := box.ShowsResultList(), box.ShowsNoLocationsFound();
  }

  /** One emoji is one character but two UTF-16 code units, so on its own
      it is long enough to be searched for. */
  method AstralCharacterQuery() returns (started: Option<string>)
    ensures started == Some("\U{1F600}")
  {
    var box := new SearchBox();
    box.InputChange("\U{1F600}");
    started := box.Elapse(DebounceDelay);
  }
}

=== FILE: location_types.dfy ===
/** `GeocodingResult` from `src/types/location.ts`. */
module LocationTypes {
  import opened Wrappers

  datatype GeocodingResult = GeocodingResult(
    name: string,
    lat: real,
    lon: real,
    country: string,
    state: Option<string>)
}

=== FILE: numbers.dfy ===
/** The two pieces of JavaScript number behaviour the dashboard relies on:
    `Math.round` and the decimal text of an integral number. */
module Numbers {
  import opened Wrappers

  /** `Math.round` on an exact real: the nearest integer, with halves
      rounded toward positive infinity. */
  function Round(x: real): (r: int)
    ensures x - 0.5 < r as real <= x + 0.5
  {
    (x + 0.5).Floor
  }

  lemma RoundMonotone(x: real, y: real)
    requires x <= y
    ensures Round(x) <= Round(y)
  {
  }

  predicate IsDigit(c: char) {
    '0' <= c <= '9'
  }

  predicate AllDigits(s: string) {
    forall i :: 0 <= i < |s| ==> IsDigit(s[i])
  }

  function DigitChar(d: nat): (c: char)
    requires d < 10
    ensures IsDigit(c)
  {
    ('0' as int + d) as char
  }

  function DigitValue(c: char): (d: nat)
    requires IsDigit(c)
    ensures d < 10
  {
    c as int - '0' as int
  }

  /** Decimal digits of `n`, most significant first, without leading zeros. */
  function NatToDecimal(n: nat): (s: string)
    ensures |s| > 0 && AllDigits(s)
    ensures (s[0] == '0') == (n == 0)
    ensures n == 0 ==> s == "0"
    decreases n
  {
    if n < 10 then [DigitChar(n)] else NatToDecimal(n / 10) + [DigitChar(n % 10)]
  }

  /** The text JavaScript produces for an integral number (`String(n)` or a
      template literal): an optional '-' and the decimal digits. Negative
      zero, which `Math.round` can return, also prints as "0". */
  function IntToDecimal(i: int): (s: string)
    ensures |s| > 0
    ensures (s[0] == '-') == (i < 0)
    ensures i >= 0 ==> AllDigits(s)
    ensures i < 0 ==> |s| >= 2 && AllDigits(s[1..]) && s[1] != '0'
    ensures s[0] == '0' ==> s == "0"
  {
    if i < 0 then "-" + NatToDecimal(-i) else NatToDecimal(i)
  }

  /** Value of a string of decimal digits. */
  function ParseNat(s: string): nat
    requires AllDigits(s)
    decreases |s|
  {
    if s == [] then 0 else 10 * ParseNat(s[..|s| - 1]) + DigitValue(s[|s| - 1])
  }

  /** Reads back an optionally signed decimal integer. */
  function ParseInt(s: string): Option<int> {
    if |s| > 1 && s[0] == '-' && AllDigits(s[1..]) then Some(-(ParseNat(s[1..]) as int))
    else if |s| > 0 && AllDigits(s) then Some(ParseNat(s))
    else None
  }

  lemma {:induction false} ParseNatToDecimal(n: nat)
    ensures ParseNat(NatToDecimal(n)) == n
    decreases n
  {
    var s := NatToDecimal(n);
    if n < 10 {
      assert s[..|s| - 1] == [];
    } else {
      ParseNatToDecimal(n / 10);
      assert s[..|s| - 1] == NatToDecimal(n / 10);
    }
  }

  /** The decimal text of an integer reads back as that integer. */
  lemma ParseIntToDecimal(i: int)
    ensures ParseInt(IntToDecimal(i)) == Some(i)
  {
    var s := IntToDecimal(i);
    if i < 0 {
      assert s[1..] == NatToDecimal(-i);
      ParseNatToDecimal(-i);
    } else {
      ParseNatToDecimal(i);
    }
  }

  /** Distinct integers print differently. */
  lemma IntToDecimalInjective(i: int, j: int)
    requires IntToDecimal(i) == IntToDecimal(j)
    ensures i == j
  {
    ParseIntToDecimal(i);
    ParseIntToDecimal(j);
  }
}

=== FILE: query.dfy ===
/** The part of a `useQuery` call that the two weather hooks decide: the
    query key, the arguments the query function forwards, and the `enabled`
    flag. Caching, de-duplication and retries belong to the query library
    and are not part of this model. */
module Query {
  import opened Wrappers
  import opened WeatherTypes
  import opened Environment

  /** The key array `[tag, lat, lon, unit]`. */
  datatype QueryKey = QueryKey(tag: string, lat: Option<real>, lon: Option<real>, unit: Option<string>)

  datatype QueryOptions = QueryOptions(queryKey: QueryKey, forwarded: WeatherParams, enabled: bool)

  /** What a subscriber observes for one evaluation: a disabled query stays
      idle and never calls its function; an enabled one settles with the
      function's outcome. */
  datatype QueryState<T> = Idle | Settled(outcome: Result<T, FetchError>)

  /** `data`: defined only after a successful run. */
  function Data<T>(state: QueryState<T>): Option<T> {
    match state
    case Settled(Success(v)) => Some(v)
    case _ => None
  }

  /** Both coordinates are present (`lat !== null && lon !== null`). */
  predicate HasCoordinates(params: WeatherParams) {
    params.lat.Some? && params.lon.Some?
  }
}

=== FILE: temperature_conversion.dfy ===
/** `src/utils/temperatureConversion.ts`: conversions between Celsius and
    Fahrenheit rounded to whole degrees, and the display string of a
    temperature already expressed in the chosen unit. */
module TemperatureConversion {
  import opened Wrappers
  import opened Numbers
  import opened WeatherTypes

  function ExactFahrenheit(celsius: real): real {
    celsius * 9.0 / 5.0 + 32.0
  }

  function ExactCelsius(fahrenheit: real): real {
    (fahrenheit - 32.0) * 5.0 / 9.0
  }

  /** The whole Fahrenheit degree nearest to `celsius` (halves go up). */
  function CelsiusToFahrenheit(celsius: real): (f: int)
    ensures ExactFahrenheit(celsius) - 0.5 < f as real <= ExactFahrenheit(celsius) + 0.5
  {
    Round(celsius * 9.0 / 5.0 + 32.0)
  }

  /** The whole Celsius degree nearest to `fahrenheit` (halves go up). */
  function FahrenheitToCelsius(fahrenheit: real): (c: int)
    ensures ExactCelsius(fahrenheit) - 0.5 < c as real <= ExactCelsius(fahrenheit) + 0.5
  {
    Round((fahrenheit - 32.0) * 5.0 / 9.0)
  }

  lemma CelsiusToFahrenheitVectors()
    ensures CelsiusToFahrenheit(0.0) == 32
    ensures CelsiusToFahrenheit(100.0) == 212
    ensures CelsiusToFahrenheit(-40.0) == -40
    ensures CelsiusToFahrenheit(20.6) == 69
  {
  }

  lemma FahrenheitToCelsiusVectors()
    ensures FahrenheitToCelsius(32.0) == 0
    ensures FahrenheitToCelsius(212.0) == 100
    ensures FahrenheitToCelsius(-40.0) == -40
    ensures FahrenheitToCelsius(70.0) == 21
  {
  }

  /** A whole Celsius temperature survives the trip through Fahrenheit: the
      rounding error of at most half a degree shrinks by 5/9 on the way back. */
  lemma CelsiusRoundTrip(celsius: int)
    ensures FahrenheitToCelsius(CelsiusToFahrenheit(celsius as real) as real) == celsius
  {
    var f := CelsiusToFahrenheit(celsius as real);
    var back := ExactCelsius(f as real);
    assert back - celsius as real == (f as real - ExactFahrenheit(celsius as real)) * 5.0 / 9.0;
  }

  lemma CelsiusToFahrenheitMonotone(a: real, b: real)
    requires a <= b
    ensures CelsiusToFahrenheit(a) <= CelsiusToFahrenheit(b)
  {
    RoundMonotone(a * 9.0 / 5.0 + 32.0, b * 9.0 / 5.0 + 32.0);
  }

  lemma FahrenheitToCelsiusMonotone(a: real, b: real)
    requires a <= b
    ensures FahrenheitToCelsius(a) <= FahrenheitToCelsius(b)
  {
    RoundMonotone((a - 32.0) * 5.0 / 9.0, (b - 32.0) * 5.0 / 9.0);
  }

  /** U+00B0, the degree sign the display is meant to carry. */
  const DegreeSign: char := '\U{B0}'

  function UnitLetter(unit: string): char {
    if unit == Metric then 'C' else 'F'
  }

  /** `getTemperatureDisplay` with one U+00B0 degree sign: the rounded value,
      the degree sign, then "C" for "metric" and "F" for any other unit. The
      value is not converted. */
  function GetTemperatureDisplay(temp: real, unit: string): (s: string)
    ensures |s| >= 3 && s[|s| - 2] == DegreeSign
    ensures s[|s| - 1] == 'C' <==> unit == Metric
  {
    IntToDecimal(Round(temp)) + [DegreeSign, UnitLetter(unit)]
  }

  /** `getTemperatureDisplay` as line 34 of the file spells it: the degree
      sign is the two characters "Â°" (U+00C2 U+00B0), the UTF-8 bytes of
      "°" read back as Latin-1. */
  function GetTemperatureDisplayAsWritten(temp: real, unit: string): (s: string)
    ensures |s| == |GetTemperatureDisplay(temp, unit)| + 1
    ensures s != GetTemperatureDisplay(temp, unit)
    ensures s[|s| - 3] == '\U{C2}' && s[|s| - 2] == DegreeSign
  {
    IntToDecimal(Round(temp)) + ['\U{C2}', DegreeSign, UnitLetter(unit)]
  }

  /** The spelled-out display misses the expected "26°C". */
  lemma AsWrittenDisplayMissesVector()
    ensures GetTemperatureDisplayAsWritten(25.7, Metric) != "26\U{B0}C"
  {
    assert |GetTemperatureDisplayAsWritten(25.7, Metric)| == 5;
  }

  /** Reads a display string back into its whole value and unit letter. */
  function ParseTemperatureDisplay(s: string): Option<(int, char)> {
    if |s| >= 3 && s[|s| - 2] == DegreeSign then
      match ParseInt(s[..|s| - 2])
      case Some(n) => Some((n, s[|s| - 1]))
      case None => None
    else None
  }

  lemma ParseTemperatureDisplayRoundTrip(temp: real, unit: string)
    ensures ParseTemperatureDisplay(GetTemperatureDisplay(temp, unit)) == Some((Round(temp), UnitLetter(unit)))
  {
    var s := GetTemperatureDisplay(temp, unit);
    assert s[..|s| - 2] == IntToDecimal(Round(temp));
    ParseIntToDecimal(Round(temp));
  }

  /** Two equal displays show the same whole value in the same unit letter. */
  lemma GetTemperatureDisplayInjective(t1: real, u1: string, t2: real, u2: string)
    requires GetTemperatureDisplay(t1, u1) == GetTemperatureDisplay(t2, u2)
    ensures Round(t1) == Round(t2)
    ensures (u1 == Metric) == (u2 == Metric)
  {
    ParseTemperatureDisplayRoundTrip(t1, u1);
    ParseTemperatureDisplayRoundTrip(t2, u2);
  }

  lemma GetTemperatureDisplayVectors()
    ensures GetTemperatureDisplay(25.7, Metric) == "26\U{B0}C"
    ensures GetTemperatureDisplay(77.3, Imperial) == "77\U{B0}F"
    ensures GetTemperatureDisplay(20.4, Metric) == "20\U{B0}C"
    ensures GetTemperatureDisplay(20.6, Metric) == "21\U{B0}C"
    ensures GetTemperatureDisplay(-5.0, Metric) == "-5\U{B0}C"
    ensures GetTemperatureDisplay(0.0, Metric) == "0\U{B0}C"
  {
  }
}

=== FILE: text.dfy ===
/** String helpers with JavaScript's meaning: `includes` and the ASCII part
    of `toUpperCase`. */
module Text {

  /** `s.includes(sub)`: `sub` occurs in `s` at some position. */
  predicate Contains(s: string, sub: string)
    ensures Contains(s, sub) ==> |sub| <= |s|
    decreases |s|
  {
    sub <= s || (|s| > 0 && Contains(s[1..], sub))
  }

  /** `sub` sits in `s` at position `i`. */
  predicate OccursAt(s: string, sub: string, i: nat) {
    i + |sub| <= |s| && s[i..i + |sub|] == sub
  }

  /** Whatever `Contains` accepts occurs at some position, returned. */
  lemma {:induction false} ContainsPosition(s: string, sub: string) returns (i: nat)
    requires Contains(s, sub)
    ensures OccursAt(s, sub, i)
    decreases |s|
  {
    if sub <= s {
      i := 0;
      assert s[0..|sub|] == sub;
    } else {
      var k := ContainsPosition(s[1..], sub);
      assert s[1..][k..k + |sub|] == s[k + 1..k + 1 + |sub|];
      i := k + 1;
    }
  }

  /** Whatever occurs at some position is accepted by `Contains`. */
  lemma {:induction false} PositionContains(s: string, sub: string, i: nat)
    requires OccursAt(s, sub, i)
    ensures Contains(s, sub)
    decreases i
  {
    if i == 0 {
      assert sub <= s;
    } else {
      assert s[1..][i - 1..i - 1 + |sub|] == s[i..i + |sub|];
      PositionContains(s[1..], sub, i - 1);
    }
  }

  lemma {:induction false} ContainsInfix(a: string, b: string, c: string)
    ensures Contains(a + b + c, b)
    decreases |a|
  {
    if a == [] {
      assert a + b + c == b + c;
    } else {
      ContainsInfix(a[1..], b, c);
      assert (a + b + c)[1..] == a[1..] + b + c;
    }
  }

  predicate IsLowerAscii(c: char) {
    'a' <= c <= 'z'
  }

  predicate IsUpperAscii(c: char) {
    'A' <= c <= 'Z'
  }

  /** `toUpperCase` on one character, for the ASCII letters: a lower-case
      letter becomes the upper-case letter at the same place in the
      alphabet; every other character is left as it is. */
  function ToUpperAscii(c: char): (u: char)
    ensures !IsLowerAscii(u)
    ensures IsUpperAscii(u) == (IsLowerAscii(c) || IsUpperAscii(c))
    ensures IsLowerAscii(c) ==> u as int - 'A' as int == c as int - 'a' as int
    ensures !IsLowerAscii(c) ==> u == c
  {
    if IsLowerAscii(c) then (c as int - 32) as char else c
  }

  const LowerAlphabet: string := "abcdefghijklmnopqrstuvwxyz"
  const UpperAlphabet: string := "ABCDEFGHIJKLMNOPQRSTUVWXYZ"

  /** Checked against the alphabet letter by letter. */
  lemma ToUpperAsciiAlphabet()
    ensures |LowerAlphabet| == |UpperAlphabet| == 26
    ensures forall i :: 0 <= i < 26 ==> ToUpperAscii(LowerAlphabet[i]) == UpperAlphabet[i]
  {
  }

  /** `s.length`: the number of UTF-16 code units, so a character outside
      the Basic Multilingual Plane counts twice. */
  function Utf16Length(s: string): (n: nat)
    ensures |s| <= n <= 2 * |s|
    ensures (forall i :: 0 <= i < |s| ==> s[i] as int < 0x1_0000) ==> n == |s|
    ensures (exists i :: 0 <= i < |s| && s[i] as int >= 0x1_0000) ==> n > |s|
    ensures |s| == 1 ==> n == (if s[0] as int < 0x1_0000 then 1 else 2)
  {
    if s == [] then 0
    else (if s[0] as int < 0x1_0000 then 1 else 2) + Utf16Length(s[1..])
  }

  /** The length of a concatenation is the sum of the lengths. */
  lemma {:induction false} Utf16LengthAppend(a: string, b: string)
    ensures Utf16Length(a + b) == Utf16Length(a) + Utf16Length(b)
    decreases |a|
  {
    if a != [] {
      assert (a + b)[1..] == a[1..] + b;
      Utf16LengthAppend(a[1..], b);
    } else {
      assert a + b == b;
    }
  }
}

=== FILE: url.dfy ===
/** The shape of the request URLs the services build,
    `<path>?<name>=<value>&<name>=<value>...`, and a reader for it. The
    reader is the partner of every URL template in the services: each
    template is proved to read back as its path and its parameters. */
module Url {
  import opened Wrappers

  type Param = (string, string)

  /** `name=value` pairs joined by '&'. */
  function QueryString(params: seq<Param>): string
    decreases |params|
  {
    if params == [] then ""
    else if |params| == 1 then params[0].0 + "=" + params[0].1
    else params[0].0 + "=" + params[0].1 + "&" + QueryString(params[1..])
  }

  lemma QueryStringCons(p: Param, rest: seq<Param>)
    requires rest != []
    ensures QueryString([p] + rest) == p.0 + "=" + p.1 + "&" + QueryString(rest)
  {
    assert ([p] + rest)[1..] == rest;
  }

  function Build(path: string, params: seq<Param>): string {
    path + "?" + QueryString(params)
  }

  /** Position of the first `c` in `s`, or `|s|` when there is none. */
  function IndexOf(s: string, c: char): (k: nat)
    ensures k <= |s|
    ensures forall i :: 0 <= i < k ==> s[i] != c
    ensures k < |s| ==> s[k] == c
    decreases |s|
  {
    if s == [] then 0 else if s[0] == c then 0 else 1 + IndexOf(s[1..], c)
  }

  /** Splits `name=value` at its first '='. */
  function ParseParam(s: string): Param {
    var k := IndexOf(s, '=');
    if k < |s| then (s[..k], s[k + 1..]) else (s, "")
  }

  function ParseQuery(q: string): seq<Param>
    decreases |q|
  {
    var k := IndexOf(q, '&');
    if k < |q| then [ParseParam(q[..k])] + ParseQuery(q[k + 1..]) else [ParseParam(q)]
  }

  /** Splits a URL at its first '?' into the path and its parameters. */
  function Parse(url: string): (string, seq<Param>) {
    var k := IndexOf(url, '?');
    if k < |url| then (url[..k], ParseQuery(url[k + 1..])) else (url, [])
  }

  /** The value of the first parameter called `name`. */
  function Lookup(params: seq<Param>, name: string): (v: Option<string>)
    ensures v.Some? <==> exists i :: 0 <= i < |params| && params[i].0 == name
    decreases |params|
  {
    if params == [] then None
    else if params[0].0 == name then Some(params[0].1)
    else Lookup(params[1..], name)
  }

  /** Names hold neither '&' nor '='; values hold no '&'. */
  predicate Readable(params: seq<Param>) {
    forall i :: 0 <= i < |params| ==>
      '&' !in params[i].0 && '=' !in params[i].0 && '&' !in params[i].1
  }

  lemma IndexOfFirst(a: string, c: char, b: string)
    requires c !in a
    ensures IndexOf(a + [c] + b, c) == |a|
  {
    var s := a + [c] + b;
    var k := IndexOf(s, c);
    assert s[|a|] == c;
    assert forall i :: 0 <= i < |a| ==> s[i] == a[i];
  }

  /** The first `c` of `head + [c] + rest` splits it back into its parts. */
  lemma SplitFirst(head: string, c: char, rest: string)
    requires c !in head
    ensures var s := head + [c] + rest;
      IndexOf(s, c) == |head| && s[..|head|] == head && s[|head| + 1..] == rest
  {
    IndexOfFirst(head, c, rest);
    var s := head + [c] + rest;
    assert s[..|head|] == head;
    assert s[|head| + 1..] == rest;
  }

  lemma ParseParamOf(name: string, value: string)
    requires '=' !in name
    ensures ParseParam(name + "=" + value) == (name, value)
  {
    SplitFirst(name, '=', value);
  }

  lemma ReadableTail(params: seq<Param>)
    requires params != [] && Readable(params)
    ensures Readable(params[1..])
  {
    forall i | 0 <= i < |params| - 1
      ensures '&' !in params[1..][i].0 && '=' !in params[1..][i].0 && '&' !in params[1..][i].1
    {
      assert params[1..][i] == params[i + 1];
    }
  }

  lemma {:induction false} ParseQueryString(params: seq<Param>)
    requires params != [] && Readable(params)
    ensures ParseQuery(QueryString(params)) == params
    decreases |params|
  {
    var name, value := params[0].0, params[0].1;
    assert '&' !in name && '=' !in name && '&' !in value;
    var head := name + "=" + value;
    ParseParamOf(name, value);
    assert '&' !in head;
    if |params| == 1 {
      assert QueryString(params) == head;
      assert IndexOf(head, '&') == |head|;
    } else {
      var rest := QueryString(params[1..]);
      assert QueryString(params) == head + "&" + rest;
      SplitFirst(head, '&', rest);
      ReadableTail(params);
      ParseQueryString(params[1..]);
      assert params == [params[0]] + params[1..];
    }
  }

  /** A URL built from a path without '?' and readable parameters reads back
      as exactly that path and those parameters. */
  lemma ParseBuild(path: string, params: seq<Param>)
    requires '?' !in path
    requires params != [] && Readable(params)
    ensures Parse(Build(path, params)) == (path, params)
  {
    var url := Build(path, params);
    IndexOfFirst(path, '?', QueryString(params));
    assert url[..|path|] == path;
    assert url[|path| + 1..] == QueryString(params);
    ParseQueryString(params);
  }
}

=== FILE: use_forecast.dfy ===
/** `src/hooks/useForecast.ts`: the forecast query, the same as the weather
    query under its own tag. */
module UseForecast {
  import opened Wrappers
  import opened WeatherTypes
  import opened Environment
  import opened Query
  import WeatherApi
  import UseWeather

  const ForecastTag := "forecast"

  /** The options `useForecast` passes to `useQuery`. */
  function UseForecast(params: WeatherParams): (o: QueryOptions)
    ensures o.enabled <==> HasCoordinates(params)
    ensures o.forwarded == params
  {
    QueryOptions(
      QueryKey(ForecastTag, params.lat, params.lon, params.unit),
      WeatherParams(params.lat, params.lon, params.unit),
      params.lat.Some? && params.lon.Some?)
  }

  function ForecastQueryState<B>(env: Env, params: WeatherParams, fetch: string -> Reply<B>): (s: QueryState<B>)
    ensures s.Idle? <==> params.lat.None? || params.lon.None?
    ensures s.Idle? ==> Data(s).None?
    ensures s.Settled? ==> s.outcome == WeatherApi.FetchForecast(env, params, fetch)
  {
    var options := UseForecast(params);
    if options.enabled then Settled(WeatherApi.FetchForecast(env, options.forwarded, fetch)) else Idle
  }

  lemma ForecastKeyIdentifiesRequest(env: Env, p: WeatherParams, q: WeatherParams)
    ensures UseForecast(p).queryKey == UseForecast(q).queryKey <==> p == q
    ensures UseForecast(p).queryKey == UseForecast(q).queryKey
            ==> WeatherApi.FetchForecastUrl(env, UseForecast(p).forwarded) == WeatherApi.FetchForecastUrl(env, UseForecast(q).forwarded)
  {
  }

  /** A forecast key never equals a current-conditions key: the two queries
      never share a cache entry. */
  lemma ForecastKeyDiffersFromWeatherKey(p: WeatherParams, q: WeatherParams)
    ensures UseForecast(p).queryKey != UseWeather.UseWeather(q).queryKey
  {
    assert ForecastTag != UseWeather.WeatherTag;
  }

  lemma ForecastUnitToggleChangesKey(params: WeatherParams, unit: string)
    requires params.unit != Some(unit)
    ensures UseForecast(params).queryKey != UseForecast(params.(unit := Some(unit))).queryKey
  {
  }
}

=== FILE: use_temperature_unit.dfy ===
/** `src/hooks/useTemperatureUnit.ts`: the unit preference and its copy in
    `localStorage`. The hook's state cell and the storage are the two fields
    of `UnitPreference`; `toggleUnit` updates both in place. */
module UseTemperatureUnit {
  import opened WeatherTypes

  const StorageKey := "temperatureUnit"

  /** The lazy initial state as written: without a window, metric; with one,
      the stored string when it is present and non-empty (`stored ||
      'metric'`), whatever it says. */
  function InitialUnit(hasWindow: bool, storage: map<string, string>): (unit: string)
    ensures !hasWindow ==> unit == Metric
    ensures hasWindow && (StorageKey !in storage || storage[StorageKey] == "") ==> unit == Metric
    ensures hasWindow && StorageKey in storage && storage[StorageKey] != "" ==> unit == storage[StorageKey]
  {
    if hasWindow && StorageKey in storage && storage[StorageKey] != "" then storage[StorageKey] else Metric
  }

  /** A stored value that is not a unit is taken over unchanged. */
  lemma InitialUnitKeepsUnknownValue()
    ensures InitialUnit(true, map[StorageKey := "invalid"]) == "invalid"
    ensures !IsTemperatureUnit(InitialUnit(true, map[StorageKey := "invalid"]))
  {
  }

  /** The initial state the hook's test expects: only the two recognised
      strings are taken from storage, anything else falls back to metric. */
  function ValidatedInitialUnit(hasWindow: bool, storage: map<string, string>): (unit: string)
    ensures IsTemperatureUnit(unit)
    ensures hasWindow && StorageKey in storage && IsTemperatureUnit(storage[StorageKey]) ==> unit == storage[StorageKey]
    ensures !(hasWindow && StorageKey in storage && IsTemperatureUnit(storage[StorageKey])) ==> unit == Metric
  {
    if hasWindow && StorageKey in storage && IsTemperatureUnit(storage[StorageKey]) then storage[StorageKey] else Metric
  }

  /** The two agree whenever storage holds a unit or nothing usable. */
  lemma ValidatedAgreesOnValidStorage(hasWindow: bool, storage: map<string, string>)
    requires !hasWindow || StorageKey !in storage || storage[StorageKey] == "" || IsTemperatureUnit(storage[StorageKey])
    ensures ValidatedInitialUnit(hasWindow, storage) == InitialUnit(hasWindow, storage)
  {
  }

  /** `unit === 'metric' ? 'imperial' : 'metric'`. */
  function Toggled(unit: string): (next: string)
    ensures IsTemperatureUnit(next)
    ensures next != unit
    ensures next == Imperial <==> unit == Metric
  {
    if unit == Metric then Imperial else Metric
  }

  /** Toggling twice from either unit restores it. */
  lemma ToggleTwiceRestores(unit: string)
    requires IsTemperatureUnit(unit)
    ensures Toggled(Toggled(unit)) == unit
  {
  }

  class UnitPreference {
    var unit: string
    var storage: map<string, string>

    constructor (hasWindow: bool, storage: map<string, string>)
      ensures this.storage == storage
      ensures unit == InitialUnit(hasWindow, storage)
    {
      this.storage := storage;
      unit := InitialUnit(hasWindow, storage);
    }

    /** `toggleUnit`: flips the unit and writes the new one to storage;
        other storage entries are untouched. */
    method ToggleUnit()
      modifies this
      ensures unit == Toggled(old(unit))
      ensures storage == old(storage)[StorageKey := unit]
      ensures IsTemperatureUnit(unit) && StorageKey in storage && storage[StorageKey] == unit
    {
      var newUnit := if unit == Metric then Imperial else Metric;
      unit := newUnit;
      storage := storage[StorageKey := newUnit];
    }
  }

  /** The hook's test scenarios, stated for the class: empty storage starts at
      metric, two toggles go to imperial and back, and storage follows. */
  method ToggleTwiceFromEmptyStorage() returns (first: string, stored1: string, second: string, stored2: string)
    ensures first == Imperial && stored1 == Imperial
    ensures second == Metric && stored2 == Metric
  {
    var pref := new UnitPreference(true, map[]);
    assert pref.unit == Metric;
    pref.ToggleUnit();
    first, stored1 := pref.unit, pref.storage[StorageKey];
    pref.ToggleUnit();
    second, stored2 := pref.unit, pref.storage[StorageKey];
  }

  /** A stored "imperial" is loaded as imperial. */
  method LoadsStoredImperial() returns (unit: string)
    ensures unit == Imperial
  {
    var pref := new UnitPreference(true, map[StorageKey := Imperial]);
    unit := pref.unit;
  }
}

=== FILE: use_weather.dfy ===
/** `src/hooks/useWeather.ts`: the current-conditions query. */
module UseWeather {
  import opened Wrappers
  import opened WeatherTypes
  import opened Environment
  import opened Query
  import WeatherApi

  const WeatherTag := "weather"

  /** The options `useWeather` passes to `useQuery`. */
  function UseWeather(params: WeatherParams): (o: QueryOptions)
    ensures o.enabled <==> HasCoordinates(params)
    ensures o.forwarded == params
  {
    QueryOptions(
      QueryKey(WeatherTag, params.lat, params.lon, params.unit),
      WeatherParams(params.lat, params.lon, params.unit),
      params.lat.Some? && params.lon.Some?)
  }

  /** The query's state: idle without both coordinates, otherwise the
      outcome of `fetchWeather` on the forwarded arguments. */
  function WeatherQueryState<B>(env: Env, params: WeatherParams, fetch: string -> Reply<B>): (s: QueryState<B>)
    ensures s.Idle? <==> params.lat.None? || params.lon.None?
    ensures s.Idle? ==> Data(s).None?
    ensures s.Settled? ==> s.outcome == WeatherApi.FetchWeather(env, params, fetch)
  {
    var options := UseWeather(params);
    if options.enabled then Settled(WeatherApi.FetchWeather(env, options.forwarded, fetch)) else Idle
  }

  /** The key identifies the arguments exactly: equal keys mean the same
      forwarded arguments, hence the same request, and different arguments
      (a different unit included) mean a different key and a new fetch. */
  lemma WeatherKeyIdentifiesRequest(env: Env, p: WeatherParams, q: WeatherParams)
    ensures UseWeather(p).queryKey == UseWeather(q).queryKey <==> p == q
    ensures UseWeather(p).queryKey == UseWeather(q).queryKey
            ==> WeatherApi.FetchWeatherUrl(env, UseWeather(p).forwarded) == WeatherApi.FetchWeatherUrl(env, UseWeather(q).forwarded)
  {
  }

  /** Toggling the unit changes the key, so the query fetches again. */
  lemma WeatherUnitToggleChangesKey(params: WeatherParams, unit: string)
    requires params.unit != Some(unit)
    ensures UseWeather(params).queryKey != UseWeather(params.(unit := Some(unit))).queryKey
  {
  }
}

=== FILE: weather_api.dfy ===
/** `src/services/weatherApi.ts`: the current-conditions and forecast
    requests. `fetch` is a parameter from the URL to the reply, so each
    operation is stated for every possible network behaviour. */
module WeatherApi {
  import opened Wrappers
  import opened WeatherTypes
  import opened Environment
  import Url

  const DefaultBaseUrl := "https://api.openweathermap.org/data/2.5"

  /** `process.env.NEXT_PUBLIC_OPENWEATHER_API_URL || default`: an unset or
      empty variable falls back to the public endpoint. */
  function BaseUrl(env: Env): (base: string)
    ensures base != ""
    ensures env.apiUrlVar.Some? && env.apiUrlVar.value != "" ==> base == env.apiUrlVar.value
    ensures env.apiUrlVar.None? || env.apiUrlVar.value == "" ==> base == DefaultBaseUrl
  {
    match env.apiUrlVar
    case Some(url) => if url != "" then url else DefaultBaseUrl
    case None => DefaultBaseUrl
  }

  datatype Endpoint = Weather | Forecast

  function EndpointName(endpoint: Endpoint): string {
    match endpoint
    case Weather => "weather"
    case Forecast => "forecast"
  }

  /** The URL `fetchWeatherData` requests. Null coordinates are not guarded
      against: they interpolate as "null". */
  function WeatherDataUrl(env: Env, endpoint: Endpoint, lat: Option<real>, lon: Option<real>, unit: string): (url: string)
    ensures BaseUrl(env) + "/" + EndpointName(endpoint) + "?lat=" <= url
    ensures |ApiKeyText(env)| < |url| && url[|url| - |ApiKeyText(env)|..] == ApiKeyText(env)
  {
    BaseUrl(env) + "/" + EndpointName(endpoint)
      + "?lat=" + NullableNumberText(env, lat)
      + "&lon=" + NullableNumberText(env, lon)
      + "&units=" + unit
      + "&appid=" + ApiKeyText(env)
  }

  function WeatherDataParams(env: Env, lat: Option<real>, lon: Option<real>, unit: string): seq<Url.Param> {
    [("lat", NullableNumberText(env, lat)),
     ("lon", NullableNumberText(env, lon)),
     ("units", unit),
     ("appid", ApiKeyText(env))]
  }

  lemma WeatherDataQueryString(env: Env, lat: Option<real>, lon: Option<real>, unit: string)
    ensures Url.QueryString(WeatherDataParams(env, lat, lon, unit))
         == "lat=" + NullableNumberText(env, lat) + "&lon=" + NullableNumberText(env, lon)
            + "&units=" + unit + "&appid=" + ApiKeyText(env)
  {
    var params := WeatherDataParams(env, lat, lon, unit);
    assert params == [params[0]] + ([params[1]] + ([params[2]] + [params[3]]));
    Url.QueryStringCons(params[2], [params[3]]);
    Url.QueryStringCons(params[1], [params[2]] + [params[3]]);
    Url.QueryStringCons(params[0], [params[1]] + ([params[2]] + [params[3]]));
  }

  /** The values of the four parameters, looked up by name. */
  lemma WeatherDataLookups(env: Env, lat: Option<real>, lon: Option<real>, unit: string)
    ensures Url.Lookup(WeatherDataParams(env, lat, lon, unit), "lat") == Some(NullableNumberText(env, lat))
    ensures Url.Lookup(WeatherDataParams(env, lat, lon, unit), "lon") == Some(NullableNumberText(env, lon))
    ensures Url.Lookup(WeatherDataParams(env, lat, lon, unit), "units") == Some(unit)
    ensures Url.Lookup(WeatherDataParams(env, lat, lon, unit), "appid") == Some(ApiKeyText(env))
  {
    var params := WeatherDataParams(env, lat, lon, unit);
    assert "lat" != "units" && "lon" != "units" && "lat" != "appid" && "lon" != "appid" && "units" != "appid";
    assert Url.Lookup(params, "units") == Url.Lookup(params[1..], "units") == Url.Lookup(params[2..], "units");
    assert Url.Lookup(params, "appid") == Url.Lookup(params[1..], "appid") == Url.Lookup(params[2..], "appid")
        == Url.Lookup(params[3..], "appid");
  }

  lemma WeatherDataParamsReadable(env: Env, lat: Option<real>, lon: Option<real>, unit: string)
    requires UrlSafe(env) && '&' !in unit
    ensures Url.Readable(WeatherDataParams(env, lat, lon, unit))
  {
    var params := WeatherDataParams(env, lat, lon, unit);
    NumberTextUrlSafe(env, lat);
    NumberTextUrlSafe(env, lon);
    forall i | 0 <= i < 4
      ensures '&' !in params[i].0 && '=' !in params[i].0 && '&' !in params[i].1
    {
    }
  }

  lemma TemplateShape(p: string, a: string, b: string, u: string, k: string)
    ensures p + "?lat=" + a + "&lon=" + b + "&units=" + u + "&appid=" + k
         == p + "?" + ("lat=" + a + "&lon=" + b + "&units=" + u + "&appid=" + k)
  {
    assert "?lat=" == "?" + "lat=";
  }

  /** The request URL reads back as `<base>/<endpoint>` with the parameters
      lat, lon, units and appid, in that order. */
  lemma WeatherDataUrlReadsBack(env: Env, endpoint: Endpoint, lat: Option<real>, lon: Option<real>, unit: string)
    requires UrlSafe(env) && '?' !in BaseUrl(env) && '&' !in unit
    ensures Url.Parse(WeatherDataUrl(env, endpoint, lat, lon, unit))
         == (BaseUrl(env) + "/" + EndpointName(endpoint), WeatherDataParams(env, lat, lon, unit))
  {
    var path := BaseUrl(env) + "/" + EndpointName(endpoint);
    var params := WeatherDataParams(env, lat, lon, unit);
    assert '?' !in path by {
      assert '?' !in "/" + EndpointName(endpoint);
    }
    WeatherDataParamsReadable(env, lat, lon, unit);
    WeatherDataQueryString(env, lat, lon, unit);
    var a, b, k := NullableNumberText(env, lat), NullableNumberText(env, lon), ApiKeyText(env);
    var q := "lat=" + a + "&lon=" + b + "&units=" + unit + "&appid=" + k;
    calc {
      WeatherDataUrl(env, endpoint, lat, lon, unit);
      path + "?lat=" + a + "&lon=" + b + "&units=" + unit + "&appid=" + k;
      { TemplateShape(path, a, b, unit, k); }
      path + "?" + q;
      Url.Build(path, params);
    }
    Url.ParseBuild(path, params);
  }

  /** `fetchWeatherData`: a rejected fetch propagates, a non-ok response
      throws "Failed to fetch <endpoint> data", an ok response yields its
      body unchanged. */
  function FetchWeatherData<B>(env: Env, endpoint: Endpoint, lat: Option<real>, lon: Option<real>, unit: string,
                               fetch: string -> Reply<B>): (r: Result<B, FetchError>)
    ensures var reply := fetch(WeatherDataUrl(env, endpoint, lat, lon, unit));
      && (r.Success? <==> reply.Response? && reply.ok)
      && (r.Success? ==> r.value == reply.body)
      && (reply.NetworkError? ==> r == Failure(TransportFailed))
      && (reply.Response? && !reply.ok ==> r == Failure(RequestFailed("Failed to fetch " + EndpointName(endpoint) + " data")))
  {
    match fetch(WeatherDataUrl(env, endpoint, lat, lon, unit))
    case NetworkError => Failure(TransportFailed)
    case Response(ok, body) =>
      if !ok then Failure(RequestFailed("Failed to fetch " + EndpointName(endpoint) + " data"))
      else Success(body)
  }

  lemma FailureMessages()
    ensures "Failed to fetch " + EndpointName(Weather) + " data" == "Failed to fetch weather data"
    ensures "Failed to fetch " + EndpointName(Forecast) + " data" == "Failed to fetch forecast data"
  {
  }

  /** The unit a service call uses: `unit = "metric"` in the destructuring
      applies when the unit is undefined. */
  function UnitOrDefault(unit: Option<string>): (u: string)
    ensures unit.None? ==> u == Metric
    ensures unit.Some? ==> u == unit.value
  {
    match unit
    case None => Metric
    case Some(u) => u
  }

  function FetchWeatherUrl(env: Env, params: WeatherParams): string {
    WeatherDataUrl(env, Weather, params.lat, params.lon, UnitOrDefault(params.unit))
  }

  function FetchForecastUrl(env: Env, params: WeatherParams): string {
    WeatherDataUrl(env, Forecast, params.lat, params.lon, UnitOrDefault(params.unit))
  }

  /** `fetchWeather`: current conditions, the unit defaulting to metric. */
  function FetchWeather<B>(env: Env, params: WeatherParams, fetch: string -> Reply<B>): (r: Result<B, FetchError>)
    ensures var reply := fetch(FetchWeatherUrl(env, params));
      && (r.Success? <==> reply.Response? && reply.ok)
      && (r.Success? ==> r.value == reply.body)
      && (reply.NetworkError? ==> r == Failure(TransportFailed))
      && (reply.Response? && !reply.ok ==> r == Failure(RequestFailed("Failed to fetch weather data")))
  {
    FailureMessages();
    FetchWeatherData(env, Weather, params.lat, params.lon, UnitOrDefault(params.unit), fetch)
  }

  /** `fetchForecast`: the five-day forecast, the unit defaulting to metric. */
  function FetchForecast<B>(env: Env, params: WeatherParams, fetch: string -> Reply<B>): (r: Result<B, FetchError>)
    ensures var reply := fetch(FetchForecastUrl(env, params));
      && (r.Success? <==> reply.Response? && reply.ok)
      && (r.Success? ==> r.value == reply.body)
      && (reply.NetworkError? ==> r == Failure(TransportFailed))
      && (reply.Response? && !reply.ok ==> r == Failure(RequestFailed("Failed to fetch forecast data")))
  {
    FailureMessages();
    FetchWeatherData(env, Forecast, params.lat, params.lon, UnitOrDefault(params.unit), fetch)
  }

  /** `fetchWeather` requests `<base>/weather` with lat, lon, the unit
      (metric when omitted) and the key. */
  lemma FetchWeatherUrlReadsBack(env: Env, params: WeatherParams)
    requires UrlSafe(env) && '?' !in BaseUrl(env) && '&' !in UnitOrDefault(params.unit)
    ensures Url.Parse(FetchWeatherUrl(env, params))
         == (BaseUrl(env) + "/" + EndpointName(Weather),
             WeatherDataParams(env, params.lat, params.lon, UnitOrDefault(params.unit)))
  {
    WeatherDataUrlReadsBack(env, Weather, params.lat, params.lon, UnitOrDefault(params.unit));
  }

  /** `fetchForecast` requests `<base>/forecast` with the same parameters. */
  lemma FetchForecastUrlReadsBack(env: Env, params: WeatherParams)
    requires UrlSafe(env) && '?' !in BaseUrl(env) && '&' !in UnitOrDefault(params.unit)
    ensures Url.Parse(FetchForecastUrl(env, params))
         == (BaseUrl(env) + "/" + EndpointName(Forecast),
             WeatherDataParams(env, params.lat, params.lon, UnitOrDefault(params.unit)))
  {
    WeatherDataUrlReadsBack(env, Forecast, params.lat, params.lon, UnitOrDefault(params.unit));
  }

  /** With the unit omitted both requests carry `units=metric`; a given unit
      is passed through. */
  lemma RequestedUnit(env: Env, params: WeatherParams)
    requires UrlSafe(env) && '?' !in BaseUrl(env) && '&' !in UnitOrDefault(params.unit)
    ensures Url.Lookup(Url.Parse(FetchWeatherUrl(env, params)).1, "units") == Some(UnitOrDefault(params.unit))
    ensures Url.Lookup(Url.Parse(FetchForecastUrl(env, params)).1, "units") == Some(UnitOrDefault(params.unit))
    ensures params.unit.None? ==> Url.Lookup(Url.Parse(FetchWeatherUrl(env, params)).1, "units") == Some("metric")
  {
    FetchWeatherUrlReadsBack(env, params);
    FetchForecastUrlReadsBack(env, params);
    WeatherDataLookups(env, params.lat, params.lon, UnitOrDefault(params.unit));
  }

  /** With the variable unset, both requests go to the public endpoint. */
  lemma DefaultEndpointRequests(env: Env, params: WeatherParams)
    requires UrlSafe(env) && env.apiUrlVar.None? && '&' !in UnitOrDefault(params.unit)
    ensures Url.Parse(FetchWeatherUrl(env, params)).0 == DefaultBaseUrl + "/weather"
    ensures Url.Parse(FetchForecastUrl(env, params)).0 == DefaultBaseUrl + "/forecast"
  {
    DefaultWeatherEndpoint(env, params);
    DefaultForecastEndpoint(env, params);
  }

  lemma DefaultWeatherEndpoint(env: Env, params: WeatherParams)
    requires UrlSafe(env) && env.apiUrlVar.None? && '&' !in UnitOrDefault(params.unit)
    ensures Url.Parse(FetchWeatherUrl(env, params)).0 == DefaultBaseUrl + "/weather"
  {
    DefaultBaseUrlHasNoQuery();
    FetchWeatherUrlReadsBack(env, params);
    assert DefaultBaseUrl + "/" + EndpointName(Weather) == DefaultBaseUrl + "/weather";
  }

  lemma DefaultForecastEndpoint(env: Env, params: WeatherParams)
    requires UrlSafe(env) && env.apiUrlVar.None? && '&' !in UnitOrDefault(params.unit)
    ensures Url.Parse(FetchForecastUrl(env, params)).0 == DefaultBaseUrl + "/forecast"
  {
    DefaultBaseUrlHasNoQuery();
    FetchForecastUrlReadsBack(env, params);
    assert DefaultBaseUrl + "/" + EndpointName(Forecast) == DefaultBaseUrl + "/forecast";
  }

  lemma DefaultBaseUrlHasNoQuery()
    ensures '?' !in DefaultBaseUrl
  {
  }

  /** Nothing guards against null coordinates: the request is still made,
      with "null" in their place. */
  lemma NullCoordinatesStillRequested(env: Env, unit: Option<string>)
    requires UrlSafe(env) && '?' !in BaseUrl(env) && '&' !in UnitOrDefault(unit)
    ensures Url.Lookup(Url.Parse(FetchWeatherUrl(env, WeatherParams(None, None, unit))).1, "lat") == Some("null")
    ensures Url.Lookup(Url.Parse(FetchWeatherUrl(env, WeatherParams(None, None, unit))).1, "lon") == Some("null")
  {
    FetchWeatherUrlReadsBack(env, WeatherParams(None, None, unit));
    WeatherDataLookups(env, None, None, UnitOrDefault(unit));
  }

  /** Requests for different units differ, so a unit change is a new request. */
  lemma UnitChangesRequest(env: Env, params: WeatherParams, other: string)
    requires UrlSafe(env) && '?' !in BaseUrl(env)
    requires '&' !in UnitOrDefault(params.unit) && '&' !in other && other != UnitOrDefault(params.unit)
    ensures FetchWeatherUrl(env, params) != FetchWeatherUrl(env, params.(unit := Some(other)))
  {
    RequestedUnit(env, params);
    RequestedUnit(env, params.(unit := Some(other)));
  }
}

=== FILE: weather_types.dfy ===
/** The records of `src/types/weather.ts` that the core logic reads. */
module WeatherTypes {
  import opened Wrappers

  /** `TemperatureUnit` is the string union "metric" | "imperial". At run
      time the hook can hold any string read from storage, so units are
      kept as strings and these are the two recognised values. */
  const Metric: string := "metric"
  const Imperial: string := "imperial"

  predicate IsTemperatureUnit(u: string) {
    u == Metric || u == Imperial
  }

  /** `WeatherParams`: coordinates are `number | null`, the unit optional. */
  datatype WeatherParams = WeatherParams(lat: Option<real>, lon: Option<real>, unit: Option<string>)

  /** One entry of `ForecastData.list`: `dt` is Unix seconds and `dtTxt`
      the provider's "YYYY-MM-DD hh:mm:ss" text. */
  datatype ForecastItem = ForecastItem(
    dt: int,
    dtTxt: string,
    temp: real,
    tempMin: real,
    tempMax: real,
    humidity: int,
    description: string,
    icon: string,
    windSpeed: real)
}

=== FILE: wrappers.dfy ===
/** Optional values and success-or-error results, used wherever the
    JavaScript code returns `undefined`/`null` or throws. */
module Wrappers {

  datatype Option<+T> = None | Some(value: T)

  datatype Result<+T, +E> = Success(value: T) | Failure(error: E)
}
